=== FILE: README.md ===
# Transactional key-value store, in Dafny

This project models the core of a small Kotlin key-value store that supports
nested transactions. The model covers:

- `TransactionalKeyValueStore`: `set`, `get`, `delete`, `getAll`,
  `beginTransaction`, `commitTransaction`, `rollbackTransaction`,
  `isInTransaction`, and the scoped block `inTransaction`.
- The helper `countValues`.
- The text-command dispatcher `processCommand` and the `Commands` verbs.

It also proves what those operations promise of one another.

The state is a base store (`map<string, string>`) plus one caller's stack
of transaction contexts. The top context is the last element of the
stack. Each context maps a key to a pending value (`Some(v)`) or to a
tombstone (`None`).

`inTransaction` takes a block of arbitrary code. It is modelled by a
small interpreter over a datatype of block operations:

- the point operations;
- explicit begin, commit and rollback;
- a nested block;
- a caught failure;
- a raised failure.

The model follows the code as written in these places:

- `getAll` walks from the innermost context outwards and overwrites as it
  goes. So for a key that several contexts mention, the OUTERMOST context
  decides, while `get` returns the INNERMOST entry. So `get` and `getAll`
  disagree for a key that two contexts mention (`GetAllOuterWins`), and
  agree for every other key (`GetAllAgreesWithGet`).
- A nested commit merges the child's changes into the parent (the comment
  at src/main/kotlin/main.kt:267). For a tombstone the merge deletes the
  parent's entry instead of recording a tombstone in the parent, so a key
  the child deleted falls through to the grandparent contexts and the
  store (`NestedCommitView`). With two contexts, the stored value shows
  through again (`NestedTombstoneResurfaces`).
- `beginTransaction` on an empty top context pushes nothing.
- `inTransaction` closes its context only if the top transaction "equals"
  the one it began. `Transaction` is a data class whose only constructor
  field is `parent`, so that equality compares the length of the parent
  chain: it is a depth test, not an identity test
  (`DepthGuardCommitsForeignContext`).
- A command line is trimmed and split on every single space, so two
  adjacent spaces make an empty token (`DoubleSpaceRejected`).

Modules:

- `Entries` (entries.dfy): contexts, and applying a context to a map. It
  also shows that replaying a context's entries in insertion order, as
  `LinkedHashMap.forEach` does, is the same as applying the context as a
  map.
- `Transactional` (transactional.dfy): the store operations.
- `StoreProperties` (store_properties.dfy): how the operations relate.
- `Scoped` (scoped.dfy): `inTransaction` and its block interpreter.
- `ScopeProperties` (scope_properties.dfy): what a scope guarantees, and
  the finding below.
- `Commands` (commands.dfy): `processCommand`, its tokenising, and its
  replies.
- `Scenarios`, `ScopeScenarios` and `CommandScenarios`: the sessions of the
  repository's tests. They are stated for arbitrary keys and values. The
  scope sessions hold both as written (a scope reuses an empty top context)
  and with a fresh context per scope, since none of them nests a scope
  directly on an empty context.

## Model

| member | source | states |
|---|---|---|
| Entries.Apply | src/main/kotlin/main.kt:265-281 | Applying a context gives, for every key it mentions, the lifted entry: a value is written and a tombstone removes the key. Every other key keeps its old value, and no new key appears. |
| Entries.ToContext | src/main/kotlin/main.kt:334-338 | For a listing with distinct keys, as the entry listing of a context's `LinkedHashMap` always is, each listed key maps to its entry, and no unlisted key is mentioned. |
| Entries.ReplayIsApply | src/main/kotlin/main.kt:265-281 | Replaying a `LinkedHashMap`'s entries one by one, as `forEach` does, gives the same map as applying the context at once. |
| Entries.ReplayOrderIrrelevant | src/main/kotlin/main.kt:243-249 | Two replays of the same distinct-key entries in different orders give the same map, so insertion order never changes the result. |
| Transactional.Set | src/main/kotlin/main.kt:199-207 | Inside a transaction, only the top context changes, and it gains a pending value. Outside, the store is updated. Depth and lower contexts never change. |
| Transactional.Delete | src/main/kotlin/main.kt:222-230 | Inside a transaction, the top context gains a tombstone. Outside, the key leaves the store and every other key keeps its value. |
| Transactional.Get | src/main/kotlin/main.kt:209-220 | The result is the entry of the innermost context that mentions the key; a tombstone reads as absent. When no context mentions the key, the result is the store's value. |
| Transactional.Overlay | src/main/kotlin/main.kt:242-251 | For each key, the outermost context that mentions it decides the result. A key no context mentions keeps its value in the base map. |
| Transactional.GetAll | src/main/kotlin/main.kt:232-254 | `getAll` shows, for each key, the outermost context's entry, or the store's value when no context mentions the key. |
| Transactional.CountValues | src/main/kotlin/main.kt:150 | The count is at most the size of the `getAll` view, and it is positive exactly when some key of that view holds the value. |
| Transactional.Begin | src/main/kotlin/main.kt:317-332 | Afterwards a transaction is active and the store is unchanged. The stack stays the same exactly when the top context was empty. Otherwise one empty context is pushed. |
| Transactional.Commit | src/main/kotlin/main.kt:260-284 | With no transaction, it reports false and changes nothing. An outermost commit leaves a store equal to the `get` view before it. A nested commit leaves the store and the lower contexts alone; the parent gains the child's values, and loses the entries the child deleted. |
| Transactional.Rollback | src/main/kotlin/main.kt:286-292 | With no transaction, it reports false and changes nothing. Otherwise it drops exactly the top context and leaves the store untouched. |
| StoreProperties.GetAfterSet | src/main/kotlin/main.kt:199-220 | Read-your-writes: after `set(k, v)`, `get(k)` is `v` and every other key reads as before, at any depth. |
| StoreProperties.GetAfterDelete | src/main/kotlin/main.kt:209-230 | After `delete(k)`, `get(k)` is absent and every other key reads as before, at any depth. |
| StoreProperties.DeleteAbsentIsNoop | src/main/kotlin/main.kt:222-230 | Outside a transaction, deleting a key the store lacks changes nothing. |
| StoreProperties.WritesStayInTop | src/main/kotlin/main.kt:199-230 | Inside a transaction, no write reaches the store or any lower context. |
| StoreProperties.BeginPreservesView | src/main/kotlin/main.kt:317-332 | `begin` changes neither `get` nor `getAll`, whether or not it pushes a context. |
| StoreProperties.CloseAfterLastRollback | src/main/kotlin/main.kt:260-292 | Once the last transaction is rolled back, both `commit` and `rollback` report false and change nothing. |
| StoreProperties.OutermostCommitPreservesView | src/main/kotlin/main.kt:260-284 | An outermost commit ends the transaction, and afterwards `get` returns for every key what it returned before. |
| StoreProperties.NestedCommitView | src/main/kotlin/main.kt:265-272 | A nested commit keeps every key's `get` view except for keys the child deleted. Those fall through to the grandparent contexts and the store. |
| StoreProperties.NestedTombstoneResurfaces | src/main/kotlin/main.kt:268-269 | With exactly two contexts, a key the inner context deleted reads as absent before the nested commit and as the store's value after it, whatever the outer context held for it. |
| StoreProperties.GetAllAgreesWithGet | src/main/kotlin/main.kt:209-254 | For a key at most one context mentions, `getAll` shows exactly what `get` returns. |
| StoreProperties.GetAllIsGetAtDepthOne | src/main/kotlin/main.kt:209-254 | With at most one transaction active, `getAll` is the key-by-key `get` view. |
| StoreProperties.GetAllOuterWins | src/main/kotlin/main.kt:242-251 | From an empty store, for any key and values, after `begin; set k a; begin; set k b`, `get(k)` is `b` while `getAll` shows `a`. |
| StoreProperties.CountValuesCountsKeys | src/main/kotlin/main.kt:150 | `countValues(v)` equals the number of keys whose `getAll` value is `v`. |
| Scoped.Open | src/main/kotlin/main.kt:317-332 | The scope's context is open afterwards and the store is untouched. As written, opening is `beginTransactionInternal`; the corrected mode always pushes a fresh context. |
| Scoped.InScopeGuard | src/main/kotlin/main.kt:298-311 | The scope re-raises exactly when its body raised, unchanged, and returns the body's reads. When the body leaves the stack as deep as opening left it, a normal exit commits the body's context and a failure drops exactly the top context without touching the store; either way the scope ends one context shallower. Otherwise the body's state is returned as it is. |
| ScopeProperties.FlatFrame | src/main/kotlin/main.kt:199-230 | Inside a transaction, a block of point operations and failures touches only the top context. |
| ScopeProperties.FlatScopeRaisedRestoresView | src/main/kotlin/main.kt:305-309 | A failing flat block leaves the store and every key's `get` view as before. When the scope pushed its own context, the state is exactly as before. |
| ScopeProperties.FlatScopeNormalCommits | src/main/kotlin/main.kt:300-304 | A completing flat block closes one context. From no transaction, the store afterwards holds the view the block ended with. Inside a non-empty transaction, the store is untouched. |
| ScopeProperties.ScopeLeaksAfterInnerReuse | src/main/kotlin/main.kt:298-323 | As written, `inTransaction { inTransaction { set(k, v) }; throw }` from an empty store raises yet leaves `k = v` in the store. |
| ScopeProperties.DepthGuardCommitsForeignContext | src/main/kotlin/main.kt:302-303 | A block that rolls back the scope's context and begins another at the same depth gets that other transaction committed. |
| ScopeProperties.ExecFrame | src/main/kotlin/main.kt:298-311 | With a fresh context per scope, a block that begins, commits and rolls back transactions only through nested scopes, run inside a transaction, touches only the top context: the store, the depth and the lower contexts are unchanged. |
| ScopeProperties.ScopeFrame | src/main/kotlin/main.kt:298-311 | With a fresh context per scope, and for a body that begins, commits and rolls back transactions only through nested scopes: a failing scope restores the state exactly, any scope leaves the depth unchanged, and inside a transaction it leaves the store and the lower contexts unchanged. |
| ScopeProperties.ScopeCommitView | src/main/kotlin/main.kt:300-304 | With a fresh context per scope, and for a body that begins, commits and rolls back transactions only through nested scopes, a completing scope hands its body's final view to the caller: from no transaction every key, and inside a transaction every key the body did not delete; a key the body deleted reads as the caller's lower contexts and store say. |
| ScopeProperties.FreshScopeDoesNotLeak | src/main/kotlin/main.kt:298-311 | With a fresh context per scope, the block of `ScopeLeaksAfterInnerReuse` raises and leaves the empty store empty. |
| Scenarios.SetGetDelete | src/test/kotlin/TaskDescriptionTest.kt:25-41 | A set value reads back, and reads as absent after a delete. |
| Scenarios.CountOccurrences | src/test/kotlin/TaskDescriptionTest.kt:53-59 | Two keys holding `x` and one holding `y` count 2 and 1. |
| Scenarios.CommitThenRollback | src/test/kotlin/TaskDescriptionTest.kt:79-90 | A committed delete and write reach the store, and a following rollback finds no transaction. |
| Scenarios.RollbackThenCommit | src/test/kotlin/TaskDescriptionTest.kt:111-124 | A rollback restores both stored values, and a following commit finds no transaction. |
| Scenarios.NestedTransactions | src/test/kotlin/TaskDescriptionTest.kt:150-166 | Two transactions deep: the count sees the outer write, the inner rollback restores the outer value, and the outer rollback restores the stored one. |
| ScopeScenarios.SingleScopeSet | src/test/kotlin/TransactionalKeyValueStoreTest.kt:18-23 | A completed block's write is in the store. |
| ScopeScenarios.SingleScopeDelete | src/test/kotlin/TransactionalKeyValueStoreTest.kt:36-42 | Writing and then deleting inside one block leaves the store empty. |
| ScopeScenarios.SingleScopeGetAll | src/test/kotlin/TransactionalKeyValueStoreTest.kt:45-51 | Both writes of a completed block appear in `getAll`. |
| ScopeScenarios.NestedScopeSet | src/test/kotlin/TransactionalKeyValueStoreTest.kt:54-62 | The nested block's value wins in the store. |
| ScopeScenarios.NestedScopeGet | src/test/kotlin/TransactionalKeyValueStoreTest.kt:65-72 | A nested block reads the outer block's pending write. |
| ScopeScenarios.NestedScopeDelete | src/test/kotlin/TransactionalKeyValueStoreTest.kt:75-83 | A nested block's delete leaves the key unset. |
| ScopeScenarios.NestedScopeGetAll | src/test/kotlin/TransactionalKeyValueStoreTest.kt:86-94 | The writes of the outer and the nested block both appear in `getAll`. |
| ScopeScenarios.NestedRollbackOuter | src/test/kotlin/TransactionalKeyValueStoreTest.kt:96-110 | A failure after a nested block undoes the outer and nested writes and re-raises. |
| ScopeScenarios.NestedRollbackInner | src/test/kotlin/TransactionalKeyValueStoreTest.kt:113-127 | A caught failure of a nested block undoes only its write. |
| ScopeScenarios.SingleScopeRollback | src/test/kotlin/TransactionalKeyValueStoreTest.kt:130-138 | A block that rolls itself back is not committed on exit. |
| ScopeScenarios.NestedRollbacks | src/test/kotlin/TransactionalKeyValueStoreTest.kt:140-156 | Rolling back the nested and then the outer block leaves nothing stored. Reads see each write only while its transaction is open. |
| Commands.TrimStart | src/main/kotlin/main.kt:50 | The result is a suffix of the input, everything dropped is whitespace, and the result does not start with whitespace. |
| Commands.TrimEnd | src/main/kotlin/main.kt:50 | The result is a prefix of the input, everything dropped is whitespace, and the result does not end with whitespace. |
| Commands.Split | src/main/kotlin/main.kt:50 | At least one token comes back, no token holds a space, and joining the tokens with single spaces gives the input back. |
| Commands.SplitJoin | src/main/kotlin/main.kt:50 | Splitting single-space-joined, space-free tokens gives the tokens back, which is the other half of the round trip. |
| Commands.TokensOfJoin | src/main/kotlin/main.kt:50 | A line of tokens joined by single spaces, with word tokens first and last, tokenises to exactly those tokens, empty inner tokens included. |
| Commands.Upper | src/main/kotlin/main.kt:52 | Upper-casing keeps the length and upper-cases each letter in place. |
| Commands.NatToString | src/main/kotlin/main.kt:70 | The decimal rendering is non-empty, all digits, and has no leading zero. |
| Commands.ParseNatToString | src/main/kotlin/main.kt:70 | Reading a count's decimal rendering back gives the count. |
| Commands.VerbsDistinct | src/main/kotlin/main.kt:116-124 | The seven verbs are distinct and already upper case. |
| Commands.Dispatch | src/main/kotlin/main.kt:52-110 | A known verb with the wrong number of arguments, or an unknown verb, gets an error text and leaves the state alone, without asking. Confirmation is asked exactly for DELETE, COMMIT and ROLLBACK with the right number of arguments. |
| Commands.ProcessCommand | src/main/kotlin/main.kt:44-114 | An unknown verb or a wrong argument count gets an error text and leaves the state alone, without asking. Confirmation is asked exactly for well-formed DELETE, COMMIT and ROLLBACK. |
| Commands.DeclinedChangesNothing | src/main/kotlin/main.kt:58-102 | A declined DELETE, COMMIT or ROLLBACK answers with its "cancelled" text and changes nothing. |
| Commands.WellFormedIsNotRejected | src/main/kotlin/main.kt:50-114 | Apart from GET, whose answer is a stored value, a well-formed command never answers with an error text. |
| Commands.ReadsKeepState | src/main/kotlin/main.kt:68-78 | GET and COUNT always answer and never change the state. |
| Commands.GetReply | src/main/kotlin/main.kt:74-78 | GET answers with the value `get` returns, or "key not set" when it is absent. |
| Commands.CountReply | src/main/kotlin/main.kt:68-72 | COUNT answers with digits that read back as `countValues`. |
| Commands.CloseWithoutTransaction | src/main/kotlin/main.kt:86-104 | A confirmed COMMIT or ROLLBACK with no transaction answers "no transaction" and changes nothing. |
| Commands.SetCommand | src/main/kotlin/main.kt:53-57 | SET writes its two arguments through `set`, answers nothing and does not ask. |
| Commands.DeleteCommand | src/main/kotlin/main.kt:59-67 | A confirmed DELETE removes its argument through `delete` and answers nothing. |
| Commands.BeginCommand | src/main/kotlin/main.kt:81-85 | BEGIN applies `beginTransaction`, answers nothing and does not ask. |
| Commands.CloseInTransaction | src/main/kotlin/main.kt:87-105 | Inside a transaction, a confirmed COMMIT applies `commitTransaction` and a confirmed ROLLBACK applies `rollbackTransaction`; either answers nothing. |
| Commands.VerbCaseIrrelevant | src/main/kotlin/main.kt:50-52 | Two lines whose verbs agree up to letter case and whose arguments are equal get the same reply and the same state. |
| CommandScenarios.SetThenGet | src/test/kotlin/CLICommandsTest.kt:29-67 | `SET key value` stores the value without asking, and `GET key` then answers it. |
| CommandScenarios.LowerCaseVerb | src/main/kotlin/main.kt:52 | `set k v` acts like `SET k v`, and both write through `set`. |
| CommandScenarios.DoubleSpaceTokens | src/main/kotlin/main.kt:50 | `GET  key` with two spaces tokenises to three tokens, the middle one empty. |
| CommandScenarios.DoubleSpaceRejected | src/main/kotlin/main.kt:74-75 | Such a line is rejected with GET's argument-count error. |
| CommandScenarios.DeleteWithAndWithoutConfirmation | src/test/kotlin/CLICommandsTest.kt:69-86 | A confirmed DELETE removes the key silently. A declined one answers "Delete operation cancelled" and keeps the key. |
| CommandScenarios.BeginOpensTransaction | src/test/kotlin/CLICommandsTest.kt:48-53 | BEGIN opens a transaction without asking. |
| CommandScenarios.CountTwo | src/test/kotlin/CLICommandsTest.kt:54-60 | Two keys set to one value make COUNT answer "2". |
| CommandScenarios.BeginThenSet | src/test/kotlin/CLICommandsTest.kt:88-94 | BEGIN then SET leaves one context that holds the pending value. |
| CommandScenarios.CommitWithConfirmation | src/test/kotlin/CLICommandsTest.kt:88-100 | A confirmed COMMIT ends the transaction, answers nothing and keeps the value. |
| CommandScenarios.CommitWithoutConfirmation | src/test/kotlin/CLICommandsTest.kt:102-114 | A declined COMMIT answers "Commit operation cancelled" and leaves the transaction open. |
| CommandScenarios.RollbackWithAndWithoutConfirmation | src/test/kotlin/CLICommandsTest.kt:116-142 | A confirmed ROLLBACK ends the transaction and drops the value. A declined one leaves the transaction open. |
| CommandScenarios.RollbackTwice | src/main/kotlin/main.kt:96-99 | A second confirmed ROLLBACK answers "no transaction". |
| CommandScenarios.GetMissing | src/main/kotlin/main.kt:74-78 | GET of a key never set answers "key not set". |

## Left out

- `main` and `runFromCliInput` are left out. They are the console loop: console I/O only.
- `UserInteraction.Default` is left out. It reads the confirmation from the console, so the model takes the answer as the `confirmed` parameter instead.
- The `ReentrantReadWriteLock` and the `ThreadLocal` stack are left out. The model has one caller, so locking changes nothing.
- The `InMemoryKeyValueStore` wrappers and `IKeyValueStore` extensions other than `countValues` are left out. They are plain map operations that the model's `map` already provides.
- `getAll` returns the live store map when no transaction is active. The model returns a value, so this aliasing is left out.
- `LinkedHashMap` insertion order is not modelled. `Entries.ReplayIsApply` and `Entries.ReplayOrderIrrelevant` show that order never changes a result, because keys within a context are distinct.
- Commands.IsWhitespace: only ASCII whitespace is recognised, because Kotlin's `trim` also drops Unicode space separators and the model has no Unicode tables.
- Commands.Upper: only ASCII letters are upper-cased, because Kotlin's `uppercase` uses locale-independent Unicode case mapping, which is not modelled.
- Transactional.CountValues: the count is an unbounded `nat`, so Kotlin's `Int` overflow beyond 2^31 - 1 keys is not modelled.
- `isInTransaction` is the predicate `Transactional.IsInTransaction`, with no contract of its own. Its behaviour is stated through `Begin`, `Commit`, `Rollback` and `CommandScenarios.BeginOpensTransaction`.
- Exceptions other than an explicit failure are not modelled. In a scoped block, a failure of the caller's code is modelled by `Throw`.
- A failing confirmation prompt is not modelled. `askConfirmation` can throw (the console reaches end of input, or a test double throws on purpose), and `processCommand` then answers "Error processing operation: " with the exception's message, leaving the state as it was. The model's `confirmed` answer cannot fail; the reply's `asked` flag records where that prompt would have run.
- The `Scoped` interpreter covers a block's store operations, nested blocks and caught failures. It leaves out arbitrary Kotlin code inside a block.
- build.gradle.kts is build configuration and is not part of this model.

## Findings

| source | as written | input that shows it | evidently intended | confidence | as-written member | corrected member |
|---|---|---|---|---|---|---|
| src/main/kotlin/main.kt:298-323 | `inTransaction` opens its scope with `beginTransactionInternal`, which reuses an empty top context. A nested block on a still-empty outer scope therefore shares and commits the outer scope's context. The outer scope then finds the stack shallower than it recorded and rolls nothing back. | `inTransaction { inTransaction { set("k", "v") }; throw Exception() }` on an empty store: the exception propagates, yet the store holds `k = v`. | A failure inside a scope undoes exactly the work done inside that scope. Each scope needs its own context, so the failed block should leave the store empty. | not executed | ScopeProperties.ScopeLeaksAfterInnerReuse | ScopeProperties.ScopeFrame | src/main/kotlin/main.kt:298-311 | With a fresh context per scope, and for a body that begins, commits and rolls back transactions only through nested scopes: a failing scope restores the state exactly, any scope leaves the depth unchanged, and inside a transaction it leaves the store and the lower contexts unchanged. |

=== FILE: command_scenarios.dfy ===
/**
  The command-line sessions of the command tests, for arbitrary keys and
  values.  Each command line is a parameter described by its tokens; such
  lines exist for any word tokens (`TokensOfJoin`).  The confirmation answer
  is a parameter of `ProcessCommand`; SET, BEGIN, COUNT and GET never ask
  for it.
 */
module CommandScenarios {
  import opened Entries
  import opened Transactional
  import opened Commands

  /** `SET key value` stores the value without asking, and `GET key` then answers it. */
  lemma SetThenGet(setLine: string, getLine: string, k: string, v: string, confirmed: bool)
    requires Tokens(setLine) == [SET, k, v] && Tokens(getLine) == [GET, k]
    ensures var r := ProcessCommand(Empty(), setLine, confirmed);
            && r.output == None && !r.asked
            && Get(r.state, k) == Some(v)
            && ProcessCommand(r.state, getLine, confirmed) == Reply(Some(v), r.state, false)
  {
    VerbsDistinct();
  }

  /** `set k v` acts like `SET k v`: the verb is matched in any letter case. */
  lemma LowerCaseVerb(st: State, lower: string, upper: string, k: string, v: string, confirmed: bool)
    requires Tokens(lower) == ["set", k, v] && Tokens(upper) == [SET, k, v]
    ensures ProcessCommand(st, lower, confirmed) == ProcessCommand(st, upper, confirmed)
    ensures ProcessCommand(st, upper, confirmed).state == Set(st, k, v)
  {
    VerbsDistinct();
    assert Upper("set") == SET;
  }

  /** Two spaces after the verb make an empty token. */
  lemma DoubleSpaceTokens(k: string)
    requires IsWord(k)
    ensures Tokens(GET + "  " + k) == [GET, "", k]
  {
    var ts := [GET, "", k];
    assert ts[1..][1..] == [k];
    assert Join(ts[1..]) == "" + " " + k;
    assert GET + "  " + k == Join(ts);
    TokensOfJoin([GET, "", k]);
  }

  /** So `GET  key` counts as two arguments and is rejected. */
  lemma DoubleSpaceRejected(st: State, line: string, k: string, confirmed: bool)
    requires Tokens(line) == [GET, "", k]
    ensures ProcessCommand(st, line, confirmed) == Rejected(st, GET + " command must have 1 argument")
  {
    VerbsDistinct();
  }

  /** `DELETE key` asks; confirmed, the key is gone and nothing is printed; declined, the key stays. */
  lemma DeleteWithAndWithoutConfirmation(setLine: string, deleteLine: string, k: string, v: string)
    requires Tokens(setLine) == [SET, k, v] && Tokens(deleteLine) == [DELETE, k]
    ensures var st := ProcessCommand(Empty(), setLine, false).state;
            && Get(st, k) == Some(v)
            && ProcessCommand(st, deleteLine, true).output == None
            && ProcessCommand(st, deleteLine, true).asked
            && Get(ProcessCommand(st, deleteLine, true).state, k) == None
            && ProcessCommand(st, deleteLine, false) == Reply(Some("Delete operation cancelled"), st, true)
  {
    VerbsDistinct();
  }

  /** `BEGIN` opens a transaction without asking. */
  lemma BeginOpensTransaction(line: string, confirmed: bool)
    requires Tokens(line) == [BEGIN]
    ensures !IsInTransaction(Empty())
    ensures var r := ProcessCommand(Empty(), line, confirmed);
            r.output == None && !r.asked && IsInTransaction(r.state)
  {
    VerbsDistinct();
  }

  /** Two keys set to the same value: `COUNT value` answers "2". */
  lemma CountTwo(line1: string, line2: string, countLine: string, k1: string, k2: string, v: string)
    requires k1 != k2
    requires Tokens(line1) == [SET, k1, v] && Tokens(line2) == [SET, k2, v] && Tokens(countLine) == [COUNT, v]
    ensures var s1 := ProcessCommand(Empty(), line1, false).state;
            var s2 := ProcessCommand(s1, line2, false).state;
            ProcessCommand(s2, countLine, false) == Reply(Some("2"), s2, false)
  {
    VerbsDistinct();
    var s2 := State(map[k1 := v, k2 := v], []);
    assert ProcessCommand(ProcessCommand(Empty(), line1, false).state, line2, false).state == s2;
    assert KeysWithValue(GetAll(s2), v) == {k1, k2};
    assert |{k1, k2}| == 2;
    assert NatToString(2) == "2";
  }

  /** The state after `BEGIN` then `SET key value`. */
  function Pending1(k: string, v: string): State
  {
    State(map[], [map[k := Some(v)]])
  }

  lemma BeginThenSet(beginLine: string, setLine: string, k: string, v: string)
    requires Tokens(beginLine) == [BEGIN] && Tokens(setLine) == [SET, k, v]
    ensures ProcessCommand(ProcessCommand(Empty(), beginLine, false).state, setLine, false).state == Pending1(k, v)
    ensures Get(Pending1(k, v), k) == Some(v)
  {
    VerbsDistinct();
  }

  lemma OutermostCommitGet(k: string, v: string)
    ensures Get(Commit(Pending1(k, v)).state, k) == Some(v)
  {
    assert Commit(Pending1(k, v)).state.store == map[k := v] by {
      FindExtensional(Apply(map[], map[k := Some(v)], StoreValue), map[k := v]);
    }
  }

  /** Confirmed `COMMIT` ends the transaction and keeps the value. */
  lemma CommitWithConfirmation(line: string, k: string, v: string)
    requires Tokens(line) == [COMMIT]
    ensures var r := ProcessCommand(Pending1(k, v), line, true);
            && r.output == None && r.asked
            && !IsInTransaction(r.state) && Get(r.state, k) == Some(v)
  {
    VerbsDistinct();
    OutermostCommitGet(k, v);
  }

  /** Declined, `COMMIT` leaves the transaction open. */
  lemma CommitWithoutConfirmation(line: string, k: string, v: string)
    requires Tokens(line) == [COMMIT]
    ensures ProcessCommand(Pending1(k, v), line, false) == Reply(Some("Commit operation cancelled"), Pending1(k, v), true)
  {
    VerbsDistinct();
  }

  /** Confirmed `ROLLBACK` ends the transaction and drops the value; declined, the transaction stays open. */
  lemma RollbackWithAndWithoutConfirmation(line: string, k: string, v: string)
    requires Tokens(line) == [ROLLBACK]
    ensures var r := ProcessCommand(Pending1(k, v), line, true);
            && r.output == None && r.asked
            && !IsInTransaction(r.state) && Get(r.state, k) == None
    ensures ProcessCommand(Pending1(k, v), line, false) == Reply(Some("Rollback operation cancelled"), Pending1(k, v), true)
  {
    VerbsDistinct();
  }

  /** A second confirmed `ROLLBACK` finds no transaction. */
  lemma RollbackTwice(line: string, k: string, v: string)
    requires Tokens(line) == [ROLLBACK]
    ensures var st := ProcessCommand(Pending1(k, v), line, true).state;
            ProcessCommand(st, line, true) == Reply(Some(NoTransaction), st, true)
  {
    VerbsDistinct();
  }

  /** A missing key reads as "key not set". */
  lemma GetMissing(line: string, k: string, confirmed: bool)
    requires Tokens(line) == [GET, k]
    ensures ProcessCommand(Empty(), line, confirmed).output == Some(KeyNotSet)
  {
    VerbsDistinct();
  }
}

=== FILE: commands.dfy ===
/**
  The text command dispatcher `processCommand`: the command line is trimmed,
  split on single spaces, its first token upper-cased and matched against
  the verbs SET, DELETE, COUNT, GET, BEGIN, COMMIT and ROLLBACK.  The answer
  to the confirmation prompt is an input; the reply records whether the
  prompt was shown.
 */
module Commands {
  import opened Entries
  import opened Transactional

  const SET := "SET"
  const DELETE := "DELETE"
  const BEGIN := "BEGIN"
  const COMMIT := "COMMIT"
  const ROLLBACK := "ROLLBACK"
  const COUNT := "COUNT"
  const GET := "GET"

  const ErrorPrefix := "Error processing operation: "
  const KeyNotSet := "key not set"
  const NoTransaction := "no transaction"

  /** What `processCommand` returns (`null` is `None`), the new state, and whether confirmation was asked. */
  datatype Reply = Reply(output: Option<string>, state: State, asked: bool)

  // ---------------------------------------------------------------------------
  // Tokenising

  /** Whitespace as the source's `trim` sees it, restricted to ASCII. */
  predicate IsWhitespace(c: char)
  {
    '\t' <= c <= '\r' || '\U{1C}' <= c <= ' '
  }

  /** Drops leading whitespace. */
  function TrimStart(s: string): (r: string)
    ensures |r| <= |s| && r == s[|s| - |r|..]
    ensures forall i :: 0 <= i < |s| - |r| ==> IsWhitespace(s[i])
    ensures |r| > 0 ==> !IsWhitespace(r[0])
    decreases |s|
  {
    if |s| > 0 && IsWhitespace(s[0]) then TrimStart(s[1..]) else s
  }

  /** Drops trailing whitespace. */
  function TrimEnd(s: string): (r: string)
    ensures |r| <= |s| && r == s[..|r|]
    ensures forall i :: |r| <= i < |s| ==> IsWhitespace(s[i])
    ensures |r| > 0 ==> !IsWhitespace(r[|r| - 1])
    decreases |s|
  {
    if |s| > 0 && IsWhitespace(s[|s| - 1]) then TrimEnd(s[..|s| - 1]) else s
  }

  function Trim(s: string): string
  {
    TrimEnd(TrimStart(s))
  }

  /** The tokens joined back with single spaces. */
  function Join(ts: seq<string>): string
    requires |ts| >= 1
    decreases |ts|
  {
    if |ts| == 1 then ts[0] else ts[0] + " " + Join(ts[1..])
  }

  /**
    `split(" ")`: every single space separates two tokens, so repeated,
    leading or trailing spaces yield empty tokens.  Joining the tokens back
    with single spaces gives the input again.
   */
  function Split(s: string): (ts: seq<string>)
    ensures |ts| >= 1
    ensures forall i :: 0 <= i < |ts| ==> ' ' !in ts[i]
    ensures Join(ts) == s
    decreases |s|
  {
    if |s| == 0 then [""]
    else
      var rest := Split(s[1..]);
      if s[0] == ' ' then
        var ts := [""] + rest;
        assert ts[1..] == rest;
        ts
      else
        var ts := [[s[0]] + rest[0]] + rest[1..];
        assert |rest| > 1 ==> ts[1..] == rest[1..] && Join(rest) == rest[0] + " " + Join(rest[1..]);
        assert ' ' !in [s[0]] + rest[0];
        ts
  }

  function UpperChar(c: char): char
  {
    if 'a' <= c <= 'z' then (c as int - 32) as char else c
  }

  /** `uppercase()`, restricted to ASCII letters. */
  function Upper(s: string): (r: string)
    ensures |r| == |s|
    ensures forall i :: 0 <= i < |s| ==> r[i] == UpperChar(s[i])
  {
    seq(|s|, i requires 0 <= i < |s| => UpperChar(s[i]))
  }

  /** A token that survives trimming and splitting unchanged: non-empty, with no whitespace. */
  predicate IsWord(t: string)
  {
    |t| > 0 && forall i :: 0 <= i < |t| ==> !IsWhitespace(t[i])
  }

  /** The tokens of a command line. */
  function Tokens(command: string): seq<string>
  {
    Split(Trim(command))
  }

  // ---------------------------------------------------------------------------
  // Decimal rendering of a count

  function DigitChar(d: nat): char
    requires d < 10
  {
    ('0' as int + d) as char
  }

  predicate IsDigit(c: char)
  {
    '0' <= c <= '9'
  }

  /** `Int.toString()` for a non-negative count. */
  function NatToString(n: nat): (s: string)
    ensures |s| >= 1
    ensures forall i :: 0 <= i < |s| ==> IsDigit(s[i])
    ensures |s| > 1 ==> s[0] != '0'
    decreases n
  {
    if n < 10 then [DigitChar(n)] else NatToString(n / 10) + [DigitChar(n % 10)]
  }

  /** The value of a string of decimal digits. */
  function ParseDigits(s: string): nat
    requires forall i :: 0 <= i < |s| ==> IsDigit(s[i])
    decreases |s|
  {
    if |s| == 0 then 0
    else
      assert IsDigit(s[|s| - 1]);
      ParseDigits(s[..|s| - 1]) * 10 + (s[|s| - 1] as int - '0' as int)
  }

  // ---------------------------------------------------------------------------
  // Dispatch

  /** The seven verbs are distinct and already upper case. */
  lemma VerbsDistinct()
    ensures Upper(SET) == SET && Upper(DELETE) == DELETE && Upper(COUNT) == COUNT && Upper(GET) == GET
    ensures Upper(BEGIN) == BEGIN && Upper(COMMIT) == COMMIT && Upper(ROLLBACK) == ROLLBACK
    ensures |{SET, DELETE, COUNT, GET, BEGIN, COMMIT, ROLLBACK}| == 7
  {
    assert SET[0] == 'S' && DELETE[0] == 'D' && GET[0] == 'G' && BEGIN[0] == 'B' && ROLLBACK[0] == 'R';
    assert COUNT[0] == 'C' && COMMIT[0] == 'C' && COUNT[2] != COMMIT[2];
  }

  /** The number of arguments each verb takes; `None` for an unknown verb. */
  function Arity(verb: string): Option<nat>
  {
    if verb == SET then Some(2)
    else if verb == DELETE || verb == COUNT || verb == GET then Some(1)
    else if verb == BEGIN || verb == COMMIT || verb == ROLLBACK then Some(0)
    else None
  }

  /** The command names a known verb (in any letter case) with the right number of arguments. */
  predicate WellFormed(command: string)
  {
    var ts := Tokens(command);
    var arity := Arity(Upper(ts[0]));
    arity.Some? && |ts| == arity.value + 1
  }

  function Verb(command: string): string
  {
    Upper(Tokens(command)[0])
  }

  /** Verbs that ask for confirmation before acting. */
  predicate Guarded(verb: string)
  {
    verb == DELETE || verb == COMMIT || verb == ROLLBACK
  }

  predicate IsError(text: string)
  {
    |ErrorPrefix| <= |text| && text[..|ErrorPrefix|] == ErrorPrefix
  }

  /** The reply for a failed `check` or an unknown verb: the state is left as it was. */
  function Rejected(st: State, message: string): Reply
  {
    Reply(Some(ErrorPrefix + message), st, false)
  }

  /**
    The `when` over the upper-cased verb, given the tokens after it.  A verb
    with the wrong number of arguments fails its `check`, and an unknown verb
    throws; both are answered with an error text, without asking for
    confirmation and without touching the state.  Confirmation is asked
    exactly for DELETE, COMMIT and ROLLBACK with the right number of
    arguments.
   */
  function Dispatch(st: State, verb: string, args: seq<string>, confirmed: bool): (r: Reply)
    ensures Arity(verb).None? || |args| != Arity(verb).value ==>
              r.state == st && !r.asked && r.output.Some? && IsError(r.output.value)
    ensures r.asked <==> Arity(verb).Some? && |args| == Arity(verb).value && Guarded(verb)
  {
    if verb == SET then
      if |args| != 2 then Rejected(st, SET + " command must have 2 arguments")
      else Reply(None, Set(st, args[0], args[1]), false)
    else if verb == DELETE then
      if |args| != 1 then Rejected(st, DELETE + " command must have 1 argument")
      else if confirmed then Reply(None, Delete(st, args[0]), true)
      else Reply(Some("Delete operation cancelled"), st, true)
    else if verb == COUNT then
      if |args| != 1 then Rejected(st, COUNT + " command must have 1 argument")
      else Reply(Some(NatToString(CountValues(st, args[0]))), st, false)
    else if verb == GET then
      if |args| != 1 then Rejected(st, GET + " command must have 1 argument")
      else
        var value := Get(st, args[0]);
        Reply(Some(if value.Some? then value.value else KeyNotSet), st, false)
    else if verb == BEGIN then
      if |args| != 0 then Rejected(st, BEGIN + " command must have 0 arguments")
      else Reply(None, Begin(st), false)
    else if verb == COMMIT then
      if |args| != 0 then Rejected(st, COMMIT + " command must have 0 arguments")
      else if !confirmed then Reply(Some("Commit operation cancelled"), st, true)
      else
        var closed := Commit(st);
        Reply(if closed.ok then None else Some(NoTransaction), closed.state, true)
    else if verb == ROLLBACK then
      if |args| != 0 then Rejected(st, ROLLBACK + " command must have 0 arguments")
      else if !confirmed then
        assert !IsError("Rollback operation cancelled") by {
          assert "Rollback operation cancelled"[0] != ErrorPrefix[0];
        }
        Reply(Some("Rollback operation cancelled"), st, true)
      else
        var closed := Rollback(st);
        Reply(if closed.ok then None else Some(NoTransaction), closed.state, true)
    else
      Rejected(st, "Unknown command")
  }

  /**
    `processCommand`: the trimmed line is split on single spaces and the
    first token, upper-cased, selects the operation.  A malformed command
    (unknown verb or wrong number of arguments) is answered with an error
    text, without asking and without touching the state.
   */
  function ProcessCommand(st: State, command: string, confirmed: bool): (r: Reply)
    ensures !WellFormed(command) ==>
              r.state == st && !r.asked && r.output.Some? && IsError(r.output.value)
    ensures r.asked <==> WellFormed(command) && Guarded(Verb(command))
  {
    var parts := Tokens(command);
    Dispatch(st, Upper(parts[0]), parts[1..], confirmed)
  }

  // ---------------------------------------------------------------------------
  // Replies

  /** A declined DELETE, COMMIT or ROLLBACK answers with its "cancelled" text and changes nothing. */
  lemma DeclinedChangesNothing(st: State, command: string)
    requires WellFormed(command) && Guarded(Verb(command))
    ensures var r := ProcessCommand(st, command, false);
            && r.state == st
            && r.output == Some(if Verb(command) == DELETE then "Delete operation cancelled"
                                else if Verb(command) == COMMIT then "Commit operation cancelled"
                                else "Rollback operation cancelled")
  {
  }

  /** Apart from GET, whose answer is a stored value, a well-formed command never answers with an error text. */
  lemma WellFormedIsNotRejected(st: State, command: string, confirmed: bool)
    requires WellFormed(command) && Verb(command) != GET
    ensures var r := ProcessCommand(st, command, confirmed);
            r.output.None? || !IsError(r.output.value)
  {
    var r := ProcessCommand(st, command, confirmed);
    VerbsDistinct();
    if r.output.Some? {
      NotErrorByFirstLetter(r.output.value);
    }
  }

  /** An error text starts with 'E'. */
  lemma NotErrorByFirstLetter(text: string)
    requires |text| > 0 && text[0] != 'E'
    ensures !IsError(text)
  {
    assert ErrorPrefix[0] == 'E';
  }

  /** GET and COUNT answer with a text and never change the state. */
  lemma ReadsKeepState(st: State, command: string, confirmed: bool)
    requires WellFormed(command) && (Verb(command) == GET || Verb(command) == COUNT)
    ensures ProcessCommand(st, command, confirmed).state == st
    ensures ProcessCommand(st, command, confirmed).output.Some?
  {
  }

  /** GET answers with the value `get` finds, or "key not set". */
  lemma GetReply(st: State, command: string, confirmed: bool)
    requires WellFormed(command) && Verb(command) == GET
    ensures var key := Tokens(command)[1];
            var out := ProcessCommand(st, command, confirmed).output;
            && (Get(st, key).None? ==> out == Some(KeyNotSet))
            && (Get(st, key).Some? ==> out == Get(st, key))
  {
  }

  /** COUNT answers with the decimal digits of `countValues`, which read back as that count. */
  lemma CountReply(st: State, command: string, confirmed: bool)
    requires WellFormed(command) && Verb(command) == COUNT
    ensures var out := ProcessCommand(st, command, confirmed).output;
            && out.Some?
            && (forall i :: 0 <= i < |out.value| ==> IsDigit(out.value[i]))
            && ParseDigits(out.value) == CountValues(st, Tokens(command)[1])
  {
    ParseNatToString(CountValues(st, Tokens(command)[1]));
  }

  /** A confirmed COMMIT or ROLLBACK with no transaction answers "no transaction" and changes nothing. */
  lemma CloseWithoutTransaction(st: State, command: string)
    requires WellFormed(command) && (Verb(command) == COMMIT || Verb(command) == ROLLBACK)
    requires !IsInTransaction(st)
    ensures ProcessCommand(st, command, true) == Reply(Some(NoTransaction), st, true)
  {
  }

  /** SET stores its two arguments through `set` and answers nothing. */
  lemma SetCommand(st: State, command: string, confirmed: bool)
    requires WellFormed(command) && Verb(command) == SET
    ensures ProcessCommand(st, command, confirmed) == Reply(None, Set(st, Tokens(command)[1], Tokens(command)[2]), false)
  {
  }

  /** A confirmed DELETE removes its argument through `delete` and answers nothing. */
  lemma DeleteCommand(st: State, command: string)
    requires WellFormed(command) && Verb(command) == DELETE
    ensures ProcessCommand(st, command, true) == Reply(None, Delete(st, Tokens(command)[1]), true)
  {
    VerbsDistinct();
  }

  /** BEGIN opens a transaction through `beginTransaction`, answers nothing and does not ask. */
  lemma BeginCommand(st: State, command: string, confirmed: bool)
    requires WellFormed(command) && Verb(command) == BEGIN
    ensures ProcessCommand(st, command, confirmed) == Reply(None, Begin(st), false)
  {
    VerbsDistinct();
  }

  /** A confirmed COMMIT or ROLLBACK inside a transaction closes it and answers nothing. */
  lemma CloseInTransaction(st: State, command: string)
    requires WellFormed(command) && (Verb(command) == COMMIT || Verb(command) == ROLLBACK)
    requires IsInTransaction(st)
    ensures ProcessCommand(st, command, true)
            == Reply(None, if Verb(command) == COMMIT then Commit(st).state else Rollback(st).state, true)
  {
    VerbsDistinct();
  }

  /**
    Only the verb's upper-cased form matters: two lines with the same
    arguments and verbs that agree up to letter case get the same reply.
   */
  lemma VerbCaseIrrelevant(st: State, a: string, b: string, confirmed: bool)
    requires Upper(Tokens(a)[0]) == Upper(Tokens(b)[0])
    requires Tokens(a)[1..] == Tokens(b)[1..]
    ensures ProcessCommand(st, a, confirmed) == ProcessCommand(st, b, confirmed)
  {
  }

  /** Reading back the decimal rendering of a count gives the count. */
  lemma {:induction false} ParseNatToString(n: nat)
    ensures ParseDigits(NatToString(n)) == n
    decreases n
  {
    if n >= 10 {
      var s := NatToString(n);
      assert s[..|s| - 1] == NatToString(n / 10);
      ParseNatToString(n / 10);
    }
  }

  // ---------------------------------------------------------------------------
  // Tokenising round trip

  lemma {:induction false} SplitWord(t: string)
    requires ' ' !in t
    ensures Split(t) == [t]
    decreases |t|
  {
    if |t| > 0 {
      assert t == [t[0]] + t[1..];
      SplitWord(t[1..]);
    }
  }

  /** Splitting at the first space yields the text before it, then the tokens after it. */
  lemma {:induction false} SplitJoined(t: string, u: string)
    requires ' ' !in t
    ensures Split(t + " " + u) == [t] + Split(u)
    decreases |t|
  {
    var s := t + " " + u;
    if |t| == 0 {
      assert s == " " + u && s[1..] == u;
    } else {
      assert s[0] == t[0] && s[1..] == t[1..] + " " + u;
      assert t == [t[0]] + t[1..];
      SplitJoined(t[1..], u);
    }
  }

  /** Joining space-free tokens with single spaces and splitting again gives the tokens back. */
  lemma {:induction false} SplitJoin(ts: seq<string>)
    requires |ts| >= 1
    requires forall i :: 0 <= i < |ts| ==> ' ' !in ts[i]
    ensures Split(Join(ts)) == ts
    decreases |ts|
  {
    if |ts| == 1 {
      SplitWord(ts[0]);
    } else {
      SplitJoined(ts[0], Join(ts[1..]));
      SplitJoin(ts[1..]);
      assert ts == [ts[0]] + ts[1..];
    }
  }

  /** The joined line ends with the last character of the last token. */
  lemma {:induction false} JoinLast(ts: seq<string>)
    requires |ts| >= 1 && |ts[|ts| - 1]| > 0
    ensures |Join(ts)| > 0
    ensures Join(ts)[|Join(ts)| - 1] == ts[|ts| - 1][|ts[|ts| - 1]| - 1]
    decreases |ts|
  {
    if |ts| > 1 {
      assert ts[1..][|ts[1..]| - 1] == ts[|ts| - 1];
      JoinLast(ts[1..]);
    }
  }

  /**
    A command line written as tokens separated by single spaces, whose first
    and last tokens are words, splits back into exactly those tokens; inner
    tokens may be empty (two adjacent spaces).
   */
  lemma TokensOfJoin(ts: seq<string>)
    requires |ts| >= 1 && IsWord(ts[0]) && IsWord(ts[|ts| - 1])
    requires forall i :: 0 <= i < |ts| ==> ' ' !in ts[i]
    ensures Tokens(Join(ts)) == ts
  {
    JoinLast(ts);
    var line := Join(ts);
    assert line[0] == ts[0][0];
    assert TrimStart(line) == line;
    assert TrimEnd(line) == line;
    SplitJoin(ts);
  }
}

=== FILE: entries.dfy ===
/**
  Pending entries of a transaction context and the way they are applied to a map.

  A context maps a key either to `Some(v)` (a pending write) or to `None`
  (a pending tombstone).  The same application algorithm is used for the base
  store and for a parent context; only the way a written value is stored
  differs, and that is passed in as `lift`.
 */
module Entries {

  datatype Option<+T> = None | Some(value: T)

  /** One level of transaction nesting: key -> pending value, or `None` for a tombstone. */
  type Context = map<string, Option<string>>

  /** One (key, entry) pair in the order the source's linked hash map would list it. */
  type Entry = (string, Option<string>)

  /** A nullable map lookup: `m[k]` in the source. */
  function Find<V>(m: map<string, V>, k: string): Option<V>
  {
    if k in m then Some(m[k]) else None
  }

  /** The lookup result a context entry produces once applied: a value is lifted, a tombstone reads as absent. */
  function Lifted<V>(e: Option<string>, lift: string -> V): Option<V>
  {
    match e
    case None => None
    case Some(v) => Some(lift(v))
  }

  /** Two maps that agree on every lookup are the same map. */
  lemma {:induction false} FindExtensional<V>(a: map<string, V>, b: map<string, V>)
    requires forall k :: Find(a, k) == Find(b, k)
    ensures a == b
  {
    forall k | k in a
      ensures k in b && a[k] == b[k]
    {
      assert Find(a, k) == Find(b, k);
    }
    forall k | k in b
      ensures k in a
    {
      assert Find(a, k) == Find(b, k);
    }
  }

  /**
    Applies every entry of `c` to `m`: a value is written (through `lift`),
    a tombstone removes the key, and keys `c` does not mention keep their value.
   */
  function Apply<V>(m: map<string, V>, c: Context, lift: string -> V): (r: map<string, V>)
    ensures forall k :: Find(r, k) == (if k in c then Lifted(c[k], lift) else Find(m, k))
    ensures forall k :: k in r ==> k in m || k in c
  {
    (map k | k in m && k !in c :: m[k]) + (map k | k in c && c[k].Some? :: lift(c[k].value))
  }

  /** One step of the source's `forEach` over a context: `set` for a value, `remove` for a tombstone. */
  function Put<V>(m: map<string, V>, e: Entry, lift: string -> V): map<string, V>
  {
    match e.1
    case None => m - {e.0}
    case Some(v) => m[e.0 := lift(v)]
  }

  lemma FindPut<V>(m: map<string, V>, e: Entry, lift: string -> V, k: string)
    ensures Find(Put(m, e, lift), k) == if k == e.0 then Lifted(e.1, lift) else Find(m, k)
  {
  }

  /** The entries replayed one by one, in their listed order. */
  function Replay<V>(m: map<string, V>, es: seq<Entry>, lift: string -> V): map<string, V>
    decreases |es|
  {
    if |es| == 0 then m else Replay(Put(m, es[0], lift), es[1..], lift)
  }

  ghost predicate DistinctKeys(es: seq<Entry>)
  {
    forall i, j :: 0 <= i < j < |es| ==> es[i].0 != es[j].0
  }

  /** The context a list of entries with distinct keys denotes. */
  function ToContext(es: seq<Entry>): (c: Context)
    ensures forall k :: k in c <==> exists i :: 0 <= i < |es| && es[i].0 == k
    ensures DistinctKeys(es) ==> forall i :: 0 <= i < |es| ==> c[es[i].0] == es[i].1
    decreases |es|
  {
    if |es| == 0 then map[]
    else
      var c' := ToContext(es[1..]);
      assert forall i :: 1 <= i < |es| ==> es[1..][i - 1] == es[i];
      c'[es[0].0 := es[0].1]
  }

  /**
    Replaying the entries of a context in their listed order has the same
    effect as applying the context as a whole: because keys are unique, the
    insertion order of the source's linked hash map does not matter.
   */
  lemma {:induction false} ReplayIsApply<V>(m: map<string, V>, es: seq<Entry>, lift: string -> V)
    requires DistinctKeys(es)
    ensures Replay(m, es, lift) == Apply(m, ToContext(es), lift)
    decreases |es|
  {
    if |es| > 0 {
      var rest := es[1..];
      assert DistinctKeys(rest) by {
        forall i, j | 0 <= i < j < |rest|
          ensures rest[i].0 != rest[j].0
        {
          assert rest[i] == es[i + 1] && rest[j] == es[j + 1];
        }
      }
      ReplayIsApply(Put(m, es[0], lift), rest, lift);
      var c := ToContext(es);
      var c' := ToContext(rest);
      assert es[0].0 !in c';
      assert c == c'[es[0].0 := es[0].1];
      forall k
        ensures Find(Apply(Put(m, es[0], lift), c', lift), k) == Find(Apply(m, c, lift), k)
      {
        FindPut(m, es[0], lift, k);
      }
      FindExtensional(Apply(Put(m, es[0], lift), c', lift), Apply(m, c, lift));
    }
  }

  /** Every entry of the context of `es` is also in the context of a reordering of `es`. */
  lemma ContextIncluded(es: seq<Entry>, es': seq<Entry>)
    requires DistinctKeys(es) && DistinctKeys(es')
    requires multiset(es) == multiset(es')
    ensures forall k :: k in ToContext(es) ==> k in ToContext(es') && ToContext(es)[k] == ToContext(es')[k]
  {
    var c, c' := ToContext(es), ToContext(es');
    forall k | k in c
      ensures k in c' && c[k] == c'[k]
    {
      var i :| 0 <= i < |es| && es[i].0 == k;
      assert es[i] in multiset(es');
      var j :| 0 <= j < |es'| && es'[j] == es[i];
      assert c'[es'[j].0] == es'[j].1;
    }
  }

  /** Two listings of the same distinct-key entries replay to the same map, whatever their order. */
  lemma ReplayOrderIrrelevant<V>(m: map<string, V>, es: seq<Entry>, es': seq<Entry>, lift: string -> V)
    requires DistinctKeys(es) && DistinctKeys(es')
    requires multiset(es) == multiset(es')
    ensures Replay(m, es, lift) == Replay(m, es', lift)
  {
    ReplayIsApply(m, es, lift);
    ReplayIsApply(m, es', lift);
    ContextIncluded(es, es');
    ContextIncluded(es', es);
    assert ToContext(es) == ToContext(es');
  }
}

=== FILE: scenarios.dfy ===
/**
  The scenarios the repository's own tests walk through, stated for any
  keys and values with the tests' shape.
 */
module Scenarios {
  import opened Entries
  import opened Transactional

  /** Set and get a value, then delete it. */
  lemma SetGetDelete(k: string, v: string)
    ensures Get(Set(Empty(), k, v), k) == Some(v)
    ensures Get(Delete(Set(Empty(), k, v), k), k) == None
  {
  }

  /** Count the occurrences of a value: two keys hold `x`, one holds `y`. */
  lemma CountOccurrences(k1: string, k2: string, k3: string, x: string, y: string)
    requires k1 != k2 && k2 != k3 && k1 != k3 && x != y
    ensures var st := Set(Set(Set(Empty(), k1, x), k2, y), k3, x);
            && CountValues(st, x) == 2
            && CountValues(st, y) == 1
  {
    var st := Set(Set(Set(Empty(), k1, x), k2, y), k3, x);
    assert st.store == map[k1 := x, k2 := y, k3 := x];
    assert KeysWithValue(GetAll(st), x) == {k1, k3};
    assert KeysWithValue(GetAll(st), y) == {k2};
  }

  /** Commit a transaction, then find no transaction left to roll back. */
  lemma CommitThenRollback(foo: string, bar: string, x: string, y: string)
    requires foo != bar
    ensures var s1 := Set(Empty(), bar, x);
            var s3 := Set(Begin(s1), foo, y);
            var c := Commit(Delete(s3, bar));
            var r := Rollback(c.state);
            && Get(s1, bar) == Some(x)
            && Get(s3, bar) == Some(x)
            && c.ok && Get(c.state, bar) == None
            && !r.ok && Get(r.state, foo) == Some(y)
  {
  }

  /** Roll back a transaction, then find no transaction left to commit. */
  lemma RollbackThenCommit(foo: string, bar: string, a: string, b: string, c: string, d: string)
    requires foo != bar
    ensures var s2 := Set(Set(Empty(), foo, a), bar, b);
            var s3 := Set(Begin(s2), foo, c);
            var s4 := Set(s3, bar, d);
            var r := Rollback(s4);
            && Get(s3, foo) == Some(c) && Get(s4, bar) == Some(d)
            && r.ok && Get(r.state, foo) == Some(a) && Get(r.state, bar) == Some(b)
            && !Commit(r.state).ok
  {
  }

  /** Nested transactions: an inner rollback restores the outer value, an outer rollback the stored one. */
  lemma NestedTransactions(foo: string, bar: string, a: string, b: string, c: string)
    requires foo != bar && a != b && b != c && a != c
    ensures var s2 := Set(Set(Empty(), foo, a), bar, b);
            var s4 := Begin(Set(Begin(s2), foo, b));
            var s5 := Set(s4, foo, c);
            var s6 := Rollback(s5).state;
            var s7 := Delete(s6, foo);
            var s8 := Rollback(s7).state;
            && |s4.stack| == 2
            && CountValues(s4, b) == 2
            && Get(s4, foo) == Some(b)
            && Get(s5, foo) == Some(c)
            && Get(s6, foo) == Some(b)
            && Get(s7, foo) == None
            && Get(s8, foo) == Some(a)
  {
    var s2 := Set(Set(Empty(), foo, a), bar, b);
    var s4 := Begin(Set(Begin(s2), foo, b));
    assert s2 == State(map[foo := a, bar := b], []);
    var s3 := Set(Begin(s2), foo, b);
    assert s3 == State(map[foo := a, bar := b], [map[foo := Some(b)]]);
    assert foo in Top(s3);
    assert s4 == State(map[foo := a, bar := b], [map[foo := Some(b)], map[]]);
    CountAfterShadowing(foo, bar, a, b);
  }

  /** The view of `NestedTransactions` after the second `begin`: the outer write shadows the stored value. */
  lemma CountAfterShadowing(foo: string, bar: string, a: string, b: string)
    requires foo != bar && a != b
    ensures CountValues(State(map[foo := a, bar := b], [map[foo := Some(b)], map[]]), b) == 2
  {
    var st := State(map[foo := a, bar := b], [map[foo := Some(b)], map[]]);
    var view := map[foo := b, bar := b];
    assert GetAll(st) == view by {
      var once := Apply(st.store, map[], StoreValue);
      var twice := Apply(once, map[foo := Some(b)], StoreValue);
      assert GetAll(st) == twice by {
        assert st.stack[..1] == [map[foo := Some(b)]];
        assert Overlay(st.store, st.stack) == Overlay(once, [map[foo := Some(b)]]);
        assert Overlay(once, [map[foo := Some(b)]]) == Overlay(twice, []);
      }
      forall k
        ensures Find(twice, k) == Find(view, k)
      {
      }
      FindExtensional(twice, view);
    }
    assert KeysWithValue(view, b) == {foo, bar};
    assert |{foo, bar}| == 2;
  }
}

=== FILE: scope_properties.dfy ===
/**
  What a scoped transaction block guarantees, and where the source's way of
  opening the scope's context breaks the guarantee.
 */
module ScopeProperties {
  import opened Entries
  import T = Transactional
  import SP = StoreProperties
  import opened Scoped

  /** A block made only of point operations and failures: no transaction control, no nested scopes. */
  predicate Flat(b: Block)
  {
    match b
    case Done => true
    case Then(op, rest) => (op.Set? || op.Delete? || op.Get? || op.Throw?) && Flat(rest)
  }

  /** A block that opens and closes transactions only through nested scopes. */
  predicate WellScoped(b: Block)
    decreases b, 0
  {
    match b
    case Done => true
    case Then(op, rest) => OpWellScoped(op) && WellScoped(rest)
  }

  predicate OpWellScoped(op: Op)
    decreases op, 0
  {
    match op
    case Scope(body) => WellScoped(body)
    case Attempt(body) => WellScoped(body)
    case Begin => false
    case Commit => false
    case Rollback => false
    case _ => true
  }

  // ---------------------------------------------------------------------------
  // Flat blocks, as the source opens scopes

  /** Inside a transaction, a point operation or failure touches only the top context. */
  lemma FlatStepFrame(mode: ScopeBegin, st: T.State, op: Op)
    requires (op.Set? || op.Delete? || op.Get? || op.Throw?) && T.IsInTransaction(st)
    ensures var r := Step(mode, st, op);
            && r.state.store == st.store
            && |r.state.stack| == |st.stack|
            && T.Parents(r.state) == T.Parents(st)
  {
    if op.Set? {
      SP.WritesStayInTop(st, op.key, op.value);
    } else if op.Delete? {
      SP.WritesStayInTop(st, op.key, "");
    }
  }

  /** Inside a transaction, a flat block touches only the top context. */
  lemma {:induction false} FlatFrame(mode: ScopeBegin, st: T.State, b: Block)
    requires Flat(b) && T.IsInTransaction(st)
    ensures var r := Exec(mode, st, b);
            && r.state.store == st.store
            && |r.state.stack| == |st.stack|
            && T.Parents(r.state) == T.Parents(st)
    decreases b
  {
    if b.Then? {
      var first := Step(mode, st, b.first);
      FlatStepFrame(mode, st, b.first);
      if first.signal == Normal {
        FlatFrame(mode, first.state, b.rest);
      }
    }
  }

  /**
    A flat scope that raises leaves the store untouched and restores every
    key's `get` view.  Unless the scope reused the caller's empty top
    context, it restores the state exactly; if it did reuse it, that empty
    context is rolled back with it.
   */
  lemma {:induction false} FlatScopeRaisedRestoresView(st: T.State, body: Block, k: string)
    requires Flat(body)
    requires InScope(Reuse, st, body).signal == Raised
    ensures InScope(Reuse, st, body).state.store == st.store
    ensures T.Get(InScope(Reuse, st, body).state, k) == T.Get(st, k)
    ensures T.Begin(st) != st ==> InScope(Reuse, st, body).state == st
  {
    var begun := T.Begin(st);
    FlatFrame(Reuse, begun, body);
    if begun == st {
      SP.GetUnfold(st, k);
    }
  }

  /**
    A flat scope that completes closes exactly one transaction: when no
    transaction was active, the store afterwards holds exactly the view the
    body ended with and no transaction remains.
   */
  lemma {:induction false} FlatScopeNormalCommits(st: T.State, body: Block, k: string)
    requires Flat(body)
    requires InScope(Reuse, st, body).signal == Normal
    ensures |InScope(Reuse, st, body).state.stack| == |T.Begin(st).stack| - 1
    ensures !T.IsInTransaction(st) ==>
              Find(InScope(Reuse, st, body).state.store, k) == T.Get(Exec(Reuse, T.Begin(st), body).state, k)
    ensures T.IsInTransaction(st) && T.Top(st) != map[] ==>
              InScope(Reuse, st, body).state.store == st.store
  {
    FlatFrame(Reuse, T.Begin(st), body);
  }

  // ---------------------------------------------------------------------------
  // Where reusing an empty context breaks the scope

  /**
    As written: `inTransaction { inTransaction { set(k, v) }; throw }` on
    an empty store (for any key and value).  The inner scope reuses the outer scope's still-empty
    context and commits it to the store; the outer scope then finds the stack
    shallower than it recorded, so it rolls nothing back.  The block raised,
    yet the store now holds `k`.
   */
  lemma ScopeLeaksAfterInnerReuse(k: string, v: string)
    ensures var r := InScope(Reuse, T.Empty(), Then(Scope(Then(Set(k, v), Done)), Then(Throw, Done)));
            && r.signal == Raised
            && r.state == T.State(map[k := v], [])
  {
    var s1 := T.State(map[], [map[]]);
    assert Open(Reuse, T.Empty()) == s1 && Open(Reuse, s1) == s1;
    var w := T.State(map[], [map[k := Some(v)]]);
    assert Exec(Reuse, s1, Then(Set(k, v), Done)) == Run(w, Normal, []);
    var c := T.State(map[k := v], []);
    assert T.Commit(w).state == c by {
      FindExtensional(Apply(map[], map[k := Some(v)], T.StoreValue), map[k := v]);
    }
    assert InScope(Reuse, s1, Then(Set(k, v), Done)) == Run(c, Normal, []);
    assert Exec(Reuse, c, Then(Throw, Done)) == Run(c, Raised, []);
    var body := Then(Scope(Then(Set(k, v), Done)), Then(Throw, Done));
    assert Exec(Reuse, s1, body) == Run(c, Raised, []);
  }

  /**
    As written: the guard compares depths, not contexts.  A body that rolls
    back the scope's context and opens one of its own at the same depth gets
    THAT transaction committed by the scope.
   */
  lemma DepthGuardCommitsForeignContext(a: string, x: string, b: string, y: string)
    ensures var r := InScope(Reuse, T.Empty(), Then(Set(a, x), Then(Rollback, Then(Begin, Then(Set(b, y), Done)))));
            && r.signal == Normal
            && r.state == T.State(map[b := y], [])
  {
    var s1 := T.State(map[], [map[]]);
    var s2 := T.State(map[], [map[a := Some(x)]]);
    var w := T.State(map[], [map[b := Some(y)]]);
    var c := T.State(map[b := y], []);
    var tail := Then(Rollback, Then(Begin, Then(Set(b, y), Done)));
    assert Exec(Reuse, s1, Then(Set(b, y), Done)) == Run(w, Normal, []);
    assert Exec(Reuse, T.Empty(), tail.rest) == Run(w, Normal, []);
    assert Exec(Reuse, s2, tail) == Run(w, Normal, []);
    assert T.Set(s1, a, x) == s2;
    assert Exec(Reuse, s1, Then(Set(a, x), tail)) == Run(w, Normal, []);
    assert T.Commit(w).state == c by {
      FindExtensional(Apply(map[], map[b := Some(y)], T.StoreValue), map[b := y]);
    }
  }

  // ---------------------------------------------------------------------------
  // Always pushing a fresh context

  /** With a fresh context per scope, a well-scoped block inside a transaction touches only the top context. */
  lemma {:induction false} ExecFrame(st: T.State, b: Block)
    requires WellScoped(b) && T.IsInTransaction(st)
    ensures var r := Exec(Push, st, b);
            && r.state.store == st.store
            && |r.state.stack| == |st.stack|
            && T.Parents(r.state) == T.Parents(st)
    decreases b, 0
  {
    if b.Then? {
      var first := Step(Push, st, b.first);
      StepFrame(st, b.first);
      if first.signal == Normal {
        ExecFrame(first.state, b.rest);
      }
    }
  }

  lemma {:induction false} StepFrame(st: T.State, op: Op)
    requires OpWellScoped(op) && T.IsInTransaction(st)
    ensures var r := Step(Push, st, op);
            && r.state.store == st.store
            && |r.state.stack| == |st.stack|
            && T.Parents(r.state) == T.Parents(st)
    decreases op, 0
  {
    match op
    case Set(k, v) => SP.WritesStayInTop(st, k, v);
    case Delete(k) => SP.WritesStayInTop(st, k, "");
    case Get(k) =>
    case Throw =>
    case Scope(body) => ScopeFrame(st, body);
    case Attempt(body) => ExecFrame(st, body);
  }

  /**
    With a fresh context per scope, a well-scoped scope is exception-safe: if
    it raises, the state is exactly what it was before the scope; if it
    completes, the stack is as deep as before and, inside a transaction, the
    store and the lower contexts are untouched.
   */
  lemma {:induction false} ScopeFrame(st: T.State, body: Block)
    requires WellScoped(body)
    ensures InScope(Push, st, body).signal == Raised ==> InScope(Push, st, body).state == st
    ensures |InScope(Push, st, body).state.stack| == |st.stack|
    ensures T.IsInTransaction(st) ==>
              InScope(Push, st, body).state.store == st.store
              && T.Parents(InScope(Push, st, body).state) == T.Parents(st)
    decreases body, 1
  {
    var begun := Open(Push, st);
    ExecFrame(begun, body);
    var inner := Exec(Push, begun, body);
    var n := |st.stack|;
    assert inner.state.stack[..n] == st.stack by {
      assert T.Parents(inner.state) == T.Parents(begun);
    }
    if inner.signal == Normal && n > 0 {
      var r := T.Commit(inner.state).state;
      assert r.stack[..n - 1] == inner.state.stack[..n - 1];
    }
  }

  /**
    With a fresh context per scope, a completing well-scoped scope hands the
    view its body ended with to the caller.  From no transaction, every key
    reads as the body left it.  Inside a transaction, so does every key the
    body did not delete; a key the body deleted falls through to what the
    caller's lower contexts and the store say, because a nested commit drops
    the parent's entry for a tombstone.
   */
  lemma ScopeCommitView(st: T.State, body: Block, k: string)
    requires WellScoped(body)
    requires InScope(Push, st, body).signal == Normal
    ensures var inner := Exec(Push, Open(Push, st), body).state;
            var r := InScope(Push, st, body).state;
            var deleted := T.IsInTransaction(inner) && k in T.Top(inner) && T.Top(inner)[k].None?;
            && (!T.IsInTransaction(st) ==> T.Get(r, k) == T.Get(inner, k))
            && (T.IsInTransaction(st) && deleted ==> T.Get(r, k) == T.Get(T.Rollback(st).state, k))
            && (T.IsInTransaction(st) && !deleted ==> T.Get(r, k) == T.Get(inner, k))
  {
    var begun := Open(Push, st);
    var inner := Exec(Push, begun, body).state;
    ExecFrame(begun, body);
    InScopeGuard(Push, st, body);
    if T.IsInTransaction(st) {
      SP.NestedCommitView(inner, k);
      assert T.Rollback(T.Rollback(inner).state).state == T.Rollback(st).state by {
        assert T.Parents(inner) == begun.stack[..|begun.stack| - 1] == st.stack;
      }
    } else {
      SP.OutermostCommitPreservesView(inner, k);
    }
  }

  /** With a fresh context per scope, the block of `ScopeLeaksAfterInnerReuse` leaves the store empty. */
  lemma FreshScopeDoesNotLeak(k: string, v: string)
    ensures var r := InScope(Push, T.Empty(), Then(Scope(Then(Set(k, v), Done)), Then(Throw, Done)));
            && r.signal == Raised
            && r.state == T.Empty()
  {
    var body := Then(Scope(Then(Set(k, v), Done)), Then(Throw, Done));
    assert OpWellScoped(Set(k, v)) && WellScoped(Done);
    assert WellScoped(Then(Set(k, v), Done));
    assert OpWellScoped(body.first) && WellScoped(Then(Throw, Done));
    ScopeFrame(T.Empty(), body);
    var s1 := T.State(map[], [map[]]);
    assert Open(Push, T.Empty()) == s1;
    assert Exec(Push, s1, body).signal == Raised by {
      var first := Step(Push, s1, body.first);
      if first.signal == Normal {
        assert Exec(Push, first.state, Then(Throw, Done)).signal == Raised;
      }
    }
  }
}

=== FILE: scope_scenarios.dfy ===
/**
  The scoped-block scenarios the repository's tests walk through, run by the
  interpreter for any keys and values of the tests' shape.  Each holds both
  with the source's way of opening a scope and with a fresh context per
  scope: in these blocks every scope opens on an empty stack or on a
  context that already holds a write, where the two agree.
 */
module ScopeScenarios {
  import opened Entries
  import T = Transactional
  import opened Scoped

  lemma ApplyOne<V>(m: map<string, V>, k: string, e: Option<string>, lift: string -> V)
    ensures e.Some? ==> Apply(m, map[k := e], lift) == m[k := lift(e.value)]
    ensures e.None? ==> Apply(m, map[k := e], lift) == m - {k}
  {
    if e.Some? {
      FindExtensional(Apply(m, map[k := e], lift), m[k := lift(e.value)]);
    } else {
      FindExtensional(Apply(m, map[k := e], lift), m - {k});
    }
  }

  /** A statement that completes without reading, then the rest of the block. */
  lemma ExecSilent(mode: ScopeBegin, st: T.State, op: Op, rest: Block, mid: T.State, after: Run)
    requires Step(mode, st, op) == Run(mid, Normal, [])
    requires Exec(mode, mid, rest) == after
    ensures Exec(mode, st, Then(op, rest)) == after
  {
    assert [] + after.seen == after.seen;
  }

  /** A statement that completes, then a rest of the block that reads nothing. */
  lemma ExecThenQuiet(mode: ScopeBegin, st: T.State, op: Op, rest: Block, first: Run, after: Run)
    requires Step(mode, st, op) == first && first.signal == Normal
    requires Exec(mode, first.state, rest) == after && after.seen == []
    ensures Exec(mode, st, Then(op, rest)) == Run(after.state, after.signal, first.seen)
  {
    assert first.seen + [] == first.seen;
  }

  /** A statement that completes, then the rest of the block. */
  lemma ExecThen(mode: ScopeBegin, st: T.State, op: Op, rest: Block, first: Run, after: Run)
    requires Step(mode, st, op) == first && first.signal == Normal
    requires Exec(mode, first.state, rest) == after
    ensures Exec(mode, st, Then(op, rest)) == Run(after.state, after.signal, first.seen + after.seen)
  {
  }

  /** A statement that raises ends the block. */
  lemma ExecStops(mode: ScopeBegin, st: T.State, op: Op, rest: Block)
    requires Step(mode, st, op).signal == Raised
    ensures Exec(mode, st, Then(op, rest)) == Step(mode, st, op)
  {
  }

  /** A scope whose body leaves its context open closes that context on exit. */
  lemma ScopeCloses(mode: ScopeBegin, st: T.State, body: Block, begun: T.State, inner: Run)
    requires Open(mode, st) == begun && Exec(mode, begun, body) == inner
    requires |inner.state.stack| == |begun.stack|
    ensures inner.signal == Normal ==> InScope(mode, st, body) == Run(T.Commit(inner.state).state, Normal, inner.seen)
    ensures inner.signal == Raised ==> InScope(mode, st, body) == Run(T.Rollback(inner.state).state, Raised, inner.seen)
  {
  }

  /** A scope whose body closed its own context leaves the stack alone on exit. */
  lemma ScopeClosedInside(mode: ScopeBegin, st: T.State, body: Block, begun: T.State, inner: Run)
    requires Open(mode, st) == begun && Exec(mode, begun, body) == inner
    requires |inner.state.stack| != |begun.stack|
    ensures InScope(mode, st, body) == Run(inner.state, inner.signal, inner.seen)
  {
  }

  // ---------------------------------------------------------------------------
  // The store operations on the small states these scenarios pass through

  /** No transaction, nothing stored, one open context holding `c`. */
  function Holding(c: Context): T.State
  {
    T.State(map[], [c])
  }

  /** No transaction, nothing stored, an outer context holding `outer` and an inner one holding `inner`. */
  function Holding2(outer: Context, inner: Context): T.State
  {
    T.State(map[], [outer, inner])
  }

  lemma SetOnFresh(k: string, v: string)
    ensures T.Set(Holding(map[]), k, v) == Holding(map[k := Some(v)])
  {
  }

  lemma SetOnWritten(k1: string, v1: string, k2: string, v2: string)
    ensures T.Set(Holding(map[k1 := Some(v1)]), k2, v2) == Holding(map[k1 := Some(v1), k2 := Some(v2)])
  {
  }

  lemma DeleteOnWritten(k: string, v: string)
    ensures T.Delete(Holding(map[k := Some(v)]), k) == Holding(map[k := None])
  {
    assert map[k := Some(v)][k := None] == map[k := None];
  }

  lemma SetOnNested(k1: string, v1: string, k2: string, v2: string)
    ensures T.Set(Holding2(map[k1 := Some(v1)], map[]), k2, v2) == Holding2(map[k1 := Some(v1)], map[k2 := Some(v2)])
  {
  }

  lemma DeleteOnNested(k: string, v: string)
    ensures T.Delete(Holding2(map[k := Some(v)], map[]), k) == Holding2(map[k := Some(v)], map[k := None])
  {
  }

  lemma CommitOne(k: string, v: string)
    ensures T.Commit(Holding(map[k := Some(v)])).state == T.State(map[k := v], [])
  {
    ApplyOne(map[], k, Some(v), T.StoreValue);
  }

  lemma CommitTwo(k1: string, v1: string, k2: string, v2: string)
    requires k1 != k2
    ensures T.Commit(Holding(map[k1 := Some(v1), k2 := Some(v2)])).state == T.State(map[k1 := v1, k2 := v2], [])
    ensures T.GetAll(T.State(map[k1 := v1, k2 := v2], [])) == map[k1 := v1, k2 := v2]
  {
    FindExtensional(Apply(map[], map[k1 := Some(v1), k2 := Some(v2)], T.StoreValue), map[k1 := v1, k2 := v2]);
  }

  lemma CommitTombstone(k: string)
    ensures T.Commit(Holding(map[k := None])).state == T.Empty()
  {
    ApplyOne(map[], k, None, T.StoreValue);
  }

  lemma CommitNothing()
    ensures T.Commit(Holding(map[])).state == T.Empty()
  {
    FindExtensional(Apply(map[], map[], T.StoreValue), map[]);
  }

  lemma NestedCommitOverwrite(k: string, v1: string, v2: string)
    ensures T.Commit(Holding2(map[k := Some(v1)], map[k := Some(v2)])).state == Holding(map[k := Some(v2)])
  {
    ApplyOne(map[k := Some(v1)], k, Some(v2), T.Pending);
    assert map[k := Some(v1)][k := T.Pending(v2)] == map[k := Some(v2)];
  }

  lemma NestedCommitOther(k1: string, v1: string, k2: string, v2: string)
    ensures T.Commit(Holding2(map[k1 := Some(v1)], map[k2 := Some(v2)])).state == Holding(map[k1 := Some(v1), k2 := Some(v2)])
  {
    ApplyOne(map[k1 := Some(v1)], k2, Some(v2), T.Pending);
  }

  lemma NestedCommitTombstone(k: string, v: string)
    ensures T.Commit(Holding2(map[k := Some(v)], map[k := None])).state == Holding(map[])
  {
    ApplyOne(map[k := Some(v)], k, None, T.Pending);
    assert map[k := Some(v)] - {k} == map[];
  }

  lemma NestedCommitNothing(k: string, v: string)
    ensures T.Commit(Holding2(map[k := Some(v)], map[])).state == Holding(map[k := Some(v)])
  {
    FindExtensional(Apply(map[k := Some(v)], map[], T.Pending), map[k := Some(v)]);
  }

  lemma RollbackOne(k: string, v: string)
    ensures T.Rollback(Holding(map[k := Some(v)])).state == T.Empty()
  {
  }

  lemma RollbackNested(k1: string, v1: string, k2: string, v2: string)
    ensures T.Rollback(Holding2(map[k1 := Some(v1)], map[k2 := Some(v2)])).state == Holding(map[k1 := Some(v1)])
  {
  }

  lemma GetWritten(k1: string, v1: string, k2: string)
    ensures T.Get(Holding(map[k1 := Some(v1)]), k2) == if k1 == k2 then Some(v1) else None
  {
  }

  lemma GetThroughFresh(k: string, v: string)
    ensures T.Get(Holding2(map[k := Some(v)], map[]), k) == Some(v)
  {
    assert T.Parents(Holding2(map[k := Some(v)], map[])) == [map[k := Some(v)]];
  }

  lemma GetNested(k1: string, v1: string, k2: string, v2: string)
    ensures T.Get(Holding2(map[k1 := Some(v1)], map[k2 := Some(v2)]), k2) == Some(v2)
  {
  }

  // ---------------------------------------------------------------------------
  // Scopes

  /** Opening a scope with no transaction active pushes a fresh context, in either mode. */
  lemma OpenOnEmpty(mode: ScopeBegin)
    ensures Open(mode, T.Empty()) == Holding(map[])
  {
  }

  /** Opening a scope on a context that holds an entry pushes a fresh context, in either mode. */
  lemma OpenOnWritten(mode: ScopeBegin, k: string, v: string)
    ensures Open(mode, Holding(map[k := Some(v)])) == Holding2(map[k := Some(v)], map[])
  {
    assert k in map[k := Some(v)];
    assert [map[k := Some(v)]] + [map[]] == [map[k := Some(v)], map[]];
  }


  /**
    A nested scope on the outer scope's written context, whose body completes
    without reading: it pushes its own context and folds it back on exit.
   */
  lemma NestedStep(mode: ScopeBegin, k: string, v: string, body: Block, written: Context, merged: T.State)
    requires Exec(mode, Holding2(map[k := Some(v)], map[]), body) == Run(Holding2(map[k := Some(v)], written), Normal, [])
    requires T.Commit(Holding2(map[k := Some(v)], written)).state == merged
    ensures Step(mode, Holding(map[k := Some(v)]), Scope(body)) == Run(merged, Normal, [])
  {
    OpenOnWritten(mode, k, v);
    ScopeCloses(mode, Holding(map[k := Some(v)]), body, Holding2(map[k := Some(v)], map[]),
                Run(Holding2(map[k := Some(v)], written), Normal, []));
  }

  /** The outermost scope of a scenario: it opens on an empty store and first writes `k`. */
  lemma OuterScope(mode: ScopeBegin, k: string, v: string, rest: Block, after: Run)
    requires Exec(mode, Holding(map[k := Some(v)]), rest) == after
    requires |after.state.stack| == 1
    ensures after.signal == Normal ==>
              InScope(mode, T.Empty(), Then(Set(k, v), rest)) == Run(T.Commit(after.state).state, Normal, after.seen)
    ensures after.signal == Raised ==>
              InScope(mode, T.Empty(), Then(Set(k, v), rest)) == Run(T.Rollback(after.state).state, Raised, after.seen)
  {
    SetOnFresh(k, v);
    ExecSilent(mode, Holding(map[]), Set(k, v), rest, Holding(map[k := Some(v)]), after);
    OpenOnEmpty(mode);
    ScopeCloses(mode, T.Empty(), Then(Set(k, v), rest), Holding(map[]), after);
  }

  /** The same scope, when its body has already closed the context itself. */
  lemma OuterScopeClosedInside(mode: ScopeBegin, k: string, v: string, rest: Block, after: Run)
    requires Exec(mode, Holding(map[k := Some(v)]), rest) == after
    requires |after.state.stack| == 0
    ensures InScope(mode, T.Empty(), Then(Set(k, v), rest)) == after
  {
    SetOnFresh(k, v);
    ExecSilent(mode, Holding(map[]), Set(k, v), rest, Holding(map[k := Some(v)]), after);
    OpenOnEmpty(mode);
    ScopeClosedInside(mode, T.Empty(), Then(Set(k, v), rest), Holding(map[]), after);
  }

  // ---------------------------------------------------------------------------
  // The scenarios

  /** `inTransaction { set(k, v) }` writes `k` to the store. */
  lemma SingleScopeSet(mode: ScopeBegin, k: string, v: string)
    ensures InScope(mode, T.Empty(), Then(Set(k, v), Done)) == Run(T.State(map[k := v], []), Normal, [])
  {
    var w := Holding(map[k := Some(v)]);
    OuterScope(mode, k, v, Done, Run(w, Normal, []));
    CommitOne(k, v);
  }

  /** `inTransaction { set(k, v); delete(k) }` leaves `k` unset. */
  lemma SingleScopeDelete(mode: ScopeBegin, k: string, v: string)
    ensures InScope(mode, T.Empty(), Then(Set(k, v), Then(Delete(k), Done))) == Run(T.Empty(), Normal, [])
  {
    var s2 := Holding(map[k := Some(v)]);
    var w := Holding(map[k := None]);
    DeleteOnWritten(k, v);
    ExecSilent(mode, s2, Delete(k), Done, w, Run(w, Normal, []));
    OuterScope(mode, k, v, Then(Delete(k), Done), Run(w, Normal, []));
    CommitTombstone(k);
  }

  /** `inTransaction { set(k1, v1); set(k2, v2) }` then `getAll` shows both keys. */
  lemma SingleScopeGetAll(mode: ScopeBegin, k1: string, v1: string, k2: string, v2: string)
    requires k1 != k2
    ensures var r := InScope(mode, T.Empty(), Then(Set(k1, v1), Then(Set(k2, v2), Done)));
            r.state == T.State(map[k1 := v1, k2 := v2], []) && T.GetAll(r.state) == map[k1 := v1, k2 := v2]
  {
    var s2 := Holding(map[k1 := Some(v1)]);
    var w := Holding(map[k1 := Some(v1), k2 := Some(v2)]);
    SetOnWritten(k1, v1, k2, v2);
    ExecSilent(mode, s2, Set(k2, v2), Done, w, Run(w, Normal, []));
    OuterScope(mode, k1, v1, Then(Set(k2, v2), Done), Run(w, Normal, []));
    CommitTwo(k1, v1, k2, v2);
  }

  /** A nested scope's write reaches the store through the outer scope's commit. */
  lemma NestedScopeSet(mode: ScopeBegin, k: string, v1: string, v2: string)
    ensures InScope(mode, T.Empty(), Then(Set(k, v1), Then(Scope(Then(Set(k, v2), Done)), Done)))
            == Run(T.State(map[k := v2], []), Normal, [])
  {
    var nested := Then(Set(k, v2), Done);
    var outer := Holding(map[k := Some(v1)]);
    var written := Holding2(map[k := Some(v1)], map[k := Some(v2)]);
    var merged := Holding(map[k := Some(v2)]);
    SetOnNested(k, v1, k, v2);
    ExecSilent(mode, Holding2(map[k := Some(v1)], map[]), Set(k, v2), Done, written, Run(written, Normal, []));
    NestedCommitOverwrite(k, v1, v2);
    NestedStep(mode, k, v1, nested, map[k := Some(v2)], merged);
    ExecSilent(mode, outer, Scope(nested), Done, merged, Run(merged, Normal, []));
    OuterScope(mode, k, v1, Then(Scope(nested), Done), Run(merged, Normal, []));
    CommitOne(k, v2);
  }

  /** A nested scope reads the outer scope's pending write. */
  lemma NestedScopeGet(mode: ScopeBegin, k: string, v: string)
    ensures InScope(mode, T.Empty(), Then(Set(k, v), Then(Scope(Then(Get(k), Done)), Done)))
            == Run(T.State(map[k := v], []), Normal, [Some(v)])
  {
    var nested := Then(Get(k), Done);
    var outer := Holding(map[k := Some(v)]);
    var both := Holding2(map[k := Some(v)], map[]);
    GetThroughFresh(k, v);
    ExecThenQuiet(mode, both, Get(k), Done, Run(both, Normal, [Some(v)]), Run(both, Normal, []));
    OpenOnWritten(mode, k, v);
    ScopeCloses(mode, outer, nested, both, Run(both, Normal, [Some(v)]));
    NestedCommitNothing(k, v);
    ExecThenQuiet(mode, outer, Scope(nested), Done, Run(outer, Normal, [Some(v)]), Run(outer, Normal, []));
    OuterScope(mode, k, v, Then(Scope(nested), Done), Run(outer, Normal, [Some(v)]));
    CommitOne(k, v);
  }

  /** A nested scope's delete, committed twice, leaves the key unset. */
  lemma NestedScopeDelete(mode: ScopeBegin, k: string, v: string)
    ensures InScope(mode, T.Empty(), Then(Set(k, v), Then(Scope(Then(Delete(k), Done)), Done)))
            == Run(T.Empty(), Normal, [])
  {
    var nested := Then(Delete(k), Done);
    var outer := Holding(map[k := Some(v)]);
    var written := Holding2(map[k := Some(v)], map[k := None]);
    var merged := Holding(map[]);
    DeleteOnNested(k, v);
    ExecSilent(mode, Holding2(map[k := Some(v)], map[]), Delete(k), Done, written, Run(written, Normal, []));
    NestedCommitTombstone(k, v);
    NestedStep(mode, k, v, nested, map[k := None], merged);
    ExecSilent(mode, outer, Scope(nested), Done, merged, Run(merged, Normal, []));
    OuterScope(mode, k, v, Then(Scope(nested), Done), Run(merged, Normal, []));
    CommitNothing();
  }

  /** Writes of the outer and of a nested scope both reach `getAll`. */
  lemma NestedScopeGetAll(mode: ScopeBegin, k1: string, v1: string, k2: string, v2: string)
    requires k1 != k2
    ensures var r := InScope(mode, T.Empty(), Then(Set(k1, v1), Then(Scope(Then(Set(k2, v2), Done)), Done)));
            r.state == T.State(map[k1 := v1, k2 := v2], []) && T.GetAll(r.state) == map[k1 := v1, k2 := v2]
  {
    var nested := Then(Set(k2, v2), Done);
    var outer := Holding(map[k1 := Some(v1)]);
    var written := Holding2(map[k1 := Some(v1)], map[k2 := Some(v2)]);
    var merged := Holding(map[k1 := Some(v1), k2 := Some(v2)]);
    SetOnNested(k1, v1, k2, v2);
    ExecSilent(mode, Holding2(map[k1 := Some(v1)], map[]), Set(k2, v2), Done, written, Run(written, Normal, []));
    NestedCommitOther(k1, v1, k2, v2);
    NestedStep(mode, k1, v1, nested, map[k2 := Some(v2)], merged);
    ExecSilent(mode, outer, Scope(nested), Done, merged, Run(merged, Normal, []));
    OuterScope(mode, k1, v1, Then(Scope(nested), Done), Run(merged, Normal, []));
    CommitTwo(k1, v1, k2, v2);
  }

  /** A failure after a nested scope rolls back the outer scope, the nested write included. */
  lemma NestedRollbackOuter(mode: ScopeBegin, k: string, v1: string, v2: string)
    ensures InScope(mode, T.Empty(), Then(Set(k, v1), Then(Scope(Then(Set(k, v2), Done)), Then(Throw, Done))))
            == Run(T.Empty(), Raised, [])
  {
    var nested := Then(Set(k, v2), Done);
    var outer := Holding(map[k := Some(v1)]);
    var written := Holding2(map[k := Some(v1)], map[k := Some(v2)]);
    var merged := Holding(map[k := Some(v2)]);
    SetOnNested(k, v1, k, v2);
    ExecSilent(mode, Holding2(map[k := Some(v1)], map[]), Set(k, v2), Done, written, Run(written, Normal, []));
    NestedCommitOverwrite(k, v1, v2);
    NestedStep(mode, k, v1, nested, map[k := Some(v2)], merged);
    ExecStops(mode, merged, Throw, Done);
    ExecSilent(mode, outer, Scope(nested), Then(Throw, Done), merged, Run(merged, Raised, []));
    OuterScope(mode, k, v1, Then(Scope(nested), Then(Throw, Done)), Run(merged, Raised, []));
    RollbackOne(k, v2);
  }

  /** A nested scope that fails, with the failure caught in the outer block, undoes only its own write. */
  lemma NestedRollbackInner(mode: ScopeBegin, k: string, v1: string, v2: string)
    ensures InScope(mode, T.Empty(), Then(Set(k, v1), Then(Attempt(Then(Scope(Then(Set(k, v2), Then(Throw, Done))), Done)), Done)))
            == Run(T.State(map[k := v1], []), Normal, [])
  {
    var inner := Then(Set(k, v2), Then(Throw, Done));
    var guarded := Then(Attempt(Then(Scope(inner), Done)), Done);
    var outer := Holding(map[k := Some(v1)]);
    var both := Holding2(map[k := Some(v1)], map[]);
    var written := Holding2(map[k := Some(v1)], map[k := Some(v2)]);
    ExecStops(mode, written, Throw, Done);
    SetOnNested(k, v1, k, v2);
    ExecSilent(mode, both, Set(k, v2), Then(Throw, Done), written, Run(written, Raised, []));
    OpenOnWritten(mode, k, v1);
    ScopeCloses(mode, outer, inner, both, Run(written, Raised, []));
    RollbackNested(k, v1, k, v2);
    ExecStops(mode, outer, Scope(inner), Done);
    ExecSilent(mode, outer, Attempt(Then(Scope(inner), Done)), Done, outer, Run(outer, Normal, []));
    OuterScope(mode, k, v1, guarded, Run(outer, Normal, []));
    CommitOne(k, v1);
  }

  /** A block that rolls back its own transaction is not committed on exit. */
  lemma SingleScopeRollback(mode: ScopeBegin, k: string, v: string)
    ensures InScope(mode, T.Empty(), Then(Set(k, v), Then(Get(k), Then(Rollback, Done))))
            == Run(T.Empty(), Normal, [Some(v)])
  {
    var w := Holding(map[k := Some(v)]);
    RollbackOne(k, v);
    ExecSilent(mode, w, Rollback, Done, T.Empty(), Run(T.Empty(), Normal, []));
    GetWritten(k, v, k);
    ExecThenQuiet(mode, w, Get(k), Then(Rollback, Done), Run(w, Normal, [Some(v)]), Run(T.Empty(), Normal, []));
    OuterScopeClosedInside(mode, k, v, Then(Get(k), Then(Rollback, Done)), Run(T.Empty(), Normal, [Some(v)]));
  }

  /**
    Rolling back a nested scope and then the outer one, each from inside its
    own block, leaves nothing in the store; the reads see each write while
    its transaction is open and not after.
   */
  lemma NestedRollbacks(mode: ScopeBegin, k1: string, v1: string, k2: string, v2: string)
    requires k1 != k2
    ensures InScope(mode, T.Empty(),
              Then(Set(k1, v1), Then(Scope(Then(Set(k2, v2), Then(Get(k2), Then(Rollback, Done)))),
              Then(Get(k1), Then(Get(k2), Then(Rollback, Done))))))
            == Run(T.Empty(), Normal, [Some(v2), Some(v1), None])
  {
    var inner := Then(Set(k2, v2), Then(Get(k2), Then(Rollback, Done)));
    var tail := Then(Get(k1), Then(Get(k2), Then(Rollback, Done)));
    var outer := Holding(map[k1 := Some(v1)]);
    InnerScopeRollsBack(mode, k1, v1, k2, v2);
    OuterTailRollsBack(mode, k1, v1, k2);
    ExecThen(mode, outer, Scope(inner), tail, Run(outer, Normal, [Some(v2)]), Run(T.Empty(), Normal, [Some(v1), None]));
    assert [Some(v2)] + [Some(v1), None] == [Some(v2), Some(v1), None];
    OuterScopeClosedInside(mode, k1, v1, Then(Scope(inner), tail), Run(T.Empty(), Normal, [Some(v2), Some(v1), None]));
  }

  /** The inner block of `NestedRollbacks`: it reads its write, then rolls back to the outer context. */
  lemma InnerScopeRollsBack(mode: ScopeBegin, k1: string, v1: string, k2: string, v2: string)
    ensures InScope(mode, Holding(map[k1 := Some(v1)]), Then(Set(k2, v2), Then(Get(k2), Then(Rollback, Done))))
            == Run(Holding(map[k1 := Some(v1)]), Normal, [Some(v2)])
  {
    var outer := Holding(map[k1 := Some(v1)]);
    var both := Holding2(map[k1 := Some(v1)], map[]);
    var written := Holding2(map[k1 := Some(v1)], map[k2 := Some(v2)]);
    RollbackNested(k1, v1, k2, v2);
    ExecSilent(mode, written, Rollback, Done, outer, Run(outer, Normal, []));
    GetNested(k1, v1, k2, v2);
    ExecThenQuiet(mode, written, Get(k2), Then(Rollback, Done), Run(written, Normal, [Some(v2)]), Run(outer, Normal, []));
    SetOnNested(k1, v1, k2, v2);
    ExecSilent(mode, both, Set(k2, v2), Then(Get(k2), Then(Rollback, Done)), written, Run(outer, Normal, [Some(v2)]));
    OpenOnWritten(mode, k1, v1);
    ScopeClosedInside(mode, outer, Then(Set(k2, v2), Then(Get(k2), Then(Rollback, Done))), both, Run(outer, Normal, [Some(v2)]));
  }

  /** The rest of the outer block of `NestedRollbacks`: two reads, then its own rollback. */
  lemma OuterTailRollsBack(mode: ScopeBegin, k1: string, v1: string, k2: string)
    requires k1 != k2
    ensures Exec(mode, Holding(map[k1 := Some(v1)]), Then(Get(k1), Then(Get(k2), Then(Rollback, Done))))
            == Run(T.Empty(), Normal, [Some(v1), None])
  {
    var outer := Holding(map[k1 := Some(v1)]);
    RollbackOne(k1, v1);
    ExecSilent(mode, outer, Rollback, Done, T.Empty(), Run(T.Empty(), Normal, []));
    GetWritten(k1, v1, k2);
    ExecThenQuiet(mode, outer, Get(k2), Then(Rollback, Done), Run(outer, Normal, [None]), Run(T.Empty(), Normal, []));
    GetWritten(k1, v1, k1);
    ExecThen(mode, outer, Get(k1), Then(Get(k2), Then(Rollback, Done)), Run(outer, Normal, [Some(v1)]), Run(T.Empty(), Normal, [None]));
    assert [Some(v1)] + [None] == [Some(v1), None];
  }
}

=== FILE: scoped.dfy ===
/**
  `inTransaction`: a scoped transaction block.  The block's body is a program
  over the store's operations, run by a small interpreter; a raised failure
  stops the body and propagates.

  The scope opens its context with `beginTransactionInternal`, records how
  deep the stack is afterwards, runs the body, and then closes the context
  only if the stack still has that depth (the source compares `Transaction`
  data-class values, whose equality is the length of their parent chains):
  it commits on a normal exit and rolls back, then re-raises, on a failure.

  How the scope opens its context is a parameter: `Reuse` is the source's
  behaviour (an empty top context is reused instead of pushing a new one);
  `Push` always opens a fresh context.
 */
module Scoped {
  import opened Entries
  import T = Transactional

  datatype Op =
    | Set(key: string, value: string)
    | Delete(key: string)
    | Get(key: string)
    | Begin
    | Commit
    | Rollback
    | Scope(body: Block)           // a nested `inTransaction { body }`
    | Attempt(body: Block)         // `try { body } catch { }` in the caller's block
    | Throw

  /** The statements of a block, first to last. */
  datatype Block = Done | Then(first: Op, rest: Block)

  datatype Signal = Normal | Raised

  /** The state a run ends in, whether it raised, and the values its `get`s returned, in order. */
  datatype Run = Run(state: T.State, signal: Signal, seen: seq<Option<string>>)

  datatype ScopeBegin = Reuse | Push

  /** How the scope opens its context. */
  function Open(mode: ScopeBegin, st: T.State): (r: T.State)
    ensures T.IsInTransaction(r) && r.store == st.store
    ensures mode == Push ==> r.stack == st.stack + [map[]]
    ensures mode == Reuse ==> r == T.Begin(st)
  {
    match mode
    case Reuse => T.Begin(st)
    case Push => T.State(st.store, st.stack + [map[]])
  }

  /** Runs the statements in order, stopping at the first raised failure. */
  function Exec(mode: ScopeBegin, st: T.State, b: Block): Run
    decreases b, 0
  {
    match b
    case Done => Run(st, Normal, [])
    case Then(op, rest) =>
      var first := Step(mode, st, op);
      if first.signal == Raised then first
      else
        var after := Exec(mode, first.state, rest);
        Run(after.state, after.signal, first.seen + after.seen)
  }

  function Step(mode: ScopeBegin, st: T.State, op: Op): Run
    decreases op, 0
  {
    match op
    case Set(k, v) => Run(T.Set(st, k, v), Normal, [])
    case Delete(k) => Run(T.Delete(st, k), Normal, [])
    case Get(k) => Run(st, Normal, [T.Get(st, k)])
    case Begin => Run(T.Begin(st), Normal, [])
    case Commit => Run(T.Commit(st).state, Normal, [])
    case Rollback => Run(T.Rollback(st).state, Normal, [])
    case Scope(body) => InScope(mode, st, body)
    case Attempt(body) =>
      var r := Exec(mode, st, body);
      Run(r.state, Normal, r.seen)
    case Throw => Run(st, Raised, [])
  }

  /**
    `inTransaction { body }`: open a context, run the body, then commit (on a
    normal exit) or roll back (on a failure) only if the stack is as deep as
    it was right after the context was begun.  A failure is re-raised.
   */
  function InScope(mode: ScopeBegin, st: T.State, body: Block): Run
    decreases body, 1
  {
    var begun := Open(mode, st);
    var depth := |begun.stack|;
    var inner := Exec(mode, begun, body);
    var stillOpen := |inner.state.stack| == depth;
    if inner.signal == Normal then
      Run(if stillOpen then T.Commit(inner.state).state else inner.state, Normal, inner.seen)
    else
      Run(if stillOpen then T.Rollback(inner.state).state else inner.state, Raised, inner.seen)
  }

  /**
    The scope's guard: the scope re-raises exactly when its body raised and
    returns the body's reads.  When the body leaves the stack as deep as
    opening left it, the scope ends one context shallower: a normal exit
    commits the body's context, and a failure drops exactly the top context
    without touching the store.  Otherwise the scope returns the body's
    state untouched.
   */
  lemma InScopeGuard(mode: ScopeBegin, st: T.State, body: Block)
    ensures var begun := Open(mode, st);
            var inner := Exec(mode, begun, body);
            var r := InScope(mode, st, body);
            && r.signal == inner.signal
            && r.seen == inner.seen
            && (|inner.state.stack| == |begun.stack| ==> |r.state.stack| == |begun.stack| - 1)
            && (|inner.state.stack| == |begun.stack| && inner.signal == Normal ==>
                  r.state == T.Commit(inner.state).state)
            && (|inner.state.stack| == |begun.stack| && inner.signal == Raised ==>
                  r.state == T.State(inner.state.store, inner.state.stack[..|begun.stack| - 1]))
            && (|inner.state.stack| != |begun.stack| ==> r.state == inner.state)
  {
  }
}

=== FILE: store_properties.dfy ===
/**
  Properties relating the operations of the transactional store to each
  other: read-your-writes, what `begin`, `commit` and `rollback` do to the
  view a caller sees, and where `getAll` and `get` part ways.
 */
module StoreProperties {
  import opened Entries
  import opened Transactional

  /** Unfolds `get` by one level of the stack. */
  lemma GetUnfold(st: State, k: string)
    requires IsInTransaction(st)
    ensures Get(st, k) == if k in Top(st) then Top(st)[k] else Get(Rollback(st).state, k)
  {
  }

  // ---------------------------------------------------------------------------
  // Writes and lookup

  /** Read-your-writes: after `set(k, v)`, `get(k)` is `v` and every other key reads as before. */
  lemma {:induction false} GetAfterSet(st: State, k: string, v: string, k': string)
    ensures Get(Set(st, k, v), k') == if k' == k then Some(v) else Get(st, k')
  {
    var r := Set(st, k, v);
    if IsInTransaction(st) {
      assert Parents(r) == Parents(st);
      GetUnfold(r, k');
      GetUnfold(st, k');
    }
  }

  /** After `delete(k)`, `get(k)` is absent and every other key reads as before. */
  lemma {:induction false} GetAfterDelete(st: State, k: string, k': string)
    ensures Get(Delete(st, k), k') == if k' == k then None else Get(st, k')
  {
    var r := Delete(st, k);
    if IsInTransaction(st) {
      assert Parents(r) == Parents(st);
      GetUnfold(r, k');
      GetUnfold(st, k');
    }
  }

  /** Deleting a key the store does not hold, outside any transaction, changes nothing. */
  lemma DeleteAbsentIsNoop(st: State, k: string)
    requires !IsInTransaction(st) && k !in st.store
    ensures Delete(st, k) == st
  {
  }

  /** With a transaction active, a write leaves the store and every lower context as they were. */
  lemma WritesStayInTop(st: State, k: string, v: string)
    requires IsInTransaction(st)
    ensures Set(st, k, v).store == st.store && Parents(Set(st, k, v)) == Parents(st)
    ensures Delete(st, k).store == st.store && Parents(Delete(st, k)) == Parents(st)
  {
    assert Parents(Set(st, k, v)) == Parents(st);
    assert Parents(Delete(st, k)) == Parents(st);
  }

  // ---------------------------------------------------------------------------
  // Begin

  /** `begin` changes nothing any reader can see: neither `get` nor `getAll`. */
  lemma {:induction false} BeginPreservesView(st: State, k: string)
    ensures Get(Begin(st), k) == Get(st, k)
    ensures GetAll(Begin(st)) == GetAll(st)
  {
    var r := Begin(st);
    if r != st {
      assert Rollback(r).state == st;
      GetUnfold(r, k);
      assert Overlay(r.store, r.stack) == Overlay(Apply(st.store, map[], StoreValue), st.stack);
      FindExtensional(Apply(st.store, map[], StoreValue), st.store);
    }
  }

  // ---------------------------------------------------------------------------
  // Commit and rollback

  /** `rollback` right after a successful `rollback` of the last transaction, and likewise `commit`, report "no transaction". */
  lemma CloseAfterLastRollback(st: State)
    requires |st.stack| == 1
    ensures Rollback(st).ok && !IsInTransaction(Rollback(st).state)
    ensures Commit(Rollback(st).state) == Closed(false, Rollback(st).state)
    ensures Rollback(Rollback(st).state) == Closed(false, Rollback(st).state)
  {
  }

  /**
    An outermost commit ends the transaction and changes no reader's view:
    afterwards `get` returns, for every key, what it returned before, and
    store keys the context does not mention keep their values.
   */
  lemma {:induction false} OutermostCommitPreservesView(st: State, k: string)
    requires |st.stack| == 1
    ensures !IsInTransaction(Commit(st).state)
    ensures Get(Commit(st).state, k) == Get(st, k)
    ensures k !in Top(st) ==> Find(Commit(st).state.store, k) == Find(st.store, k)
  {
    GetUnfold(st, k);
  }

  /**
    A nested commit keeps the view of every key the child did not delete;
    for a key the child deleted, the parent's entry is dropped, so `get`
    falls through to the grandparents and the store.
   */
  lemma {:induction false} NestedCommitView(st: State, k: string)
    requires |st.stack| >= 2
    ensures k in Top(st) && Top(st)[k].None? ==>
              Get(Commit(st).state, k) == Get(Rollback(Rollback(st).state).state, k)
    ensures !(k in Top(st) && Top(st)[k].None?) ==>
              Get(Commit(st).state, k) == Get(st, k)
  {
    var r := Commit(st).state;
    var n := |st.stack|;
    assert Rollback(r).state == Rollback(Rollback(st).state).state by {
      assert Parents(r) == st.stack[..n - 2];
    }
    GetUnfold(r, k);
    GetUnfold(st, k);
    if k !in Top(st) {
      GetUnfold(Rollback(st).state, k);
      assert Top(Rollback(st).state) == st.stack[n - 2];
    }
  }

  /**
    Committing a nested tombstone does not hide the key: with two contexts,
    a key the inner context deleted reads as absent before the commit, and
    as the store's value after it, whatever the outer context held.
   */
  lemma NestedTombstoneResurfaces(st: State, k: string)
    requires |st.stack| == 2 && k in Top(st) && Top(st)[k].None?
    ensures Get(st, k) == None
    ensures Get(Commit(st).state, k) == Find(st.store, k)
  {
    NestedCommitView(st, k);
  }

  // ---------------------------------------------------------------------------
  // getAll and get

  /** For a key at most one context mentions, `getAll` shows exactly what `get` returns. */
  lemma {:induction false} GetAllAgreesWithGet(st: State, k: string)
    requires forall i, j :: 0 <= i < j < |st.stack| && k in st.stack[i] ==> k !in st.stack[j]
    ensures Find(GetAll(st), k) == Get(st, k)
  {
    if !Unmentioned(st.stack, k) {
      var i :| 0 <= i < |st.stack| && k in st.stack[i];
      assert OutermostAt(st.stack, k, i) && InnermostAt(st.stack, k, i);
    }
  }

  /** Outside a transaction, or in a single one, `getAll` is the key-by-key view of `get`. */
  lemma GetAllIsGetAtDepthOne(st: State, k: string)
    requires |st.stack| <= 1
    ensures Find(GetAll(st), k) == Get(st, k)
  {
    GetAllAgreesWithGet(st, k);
  }

  /**
    When two contexts hold the same key, `getAll` shows the OUTER entry while
    `get` returns the inner one: `set k a; begin; set k b`.
   */
  lemma GetAllOuterWins(k: string, a: string, b: string)
    ensures var st := Set(Begin(Set(Begin(Empty()), k, a)), k, b);
            && Get(st, k) == Some(b)
            && Find(GetAll(st), k) == Some(a)
  {
    var s1 := State(map[], [map[]]);
    var s2 := State(map[], [map[k := Some(a)]]);
    assert Set(s1, k, a) == s2;
    var s3 := State(map[], [map[k := Some(a)], map[]]);
    assert Begin(s2) == s3 by {
      assert k in Top(s2);
    }
    var st := State(map[], [map[k := Some(a)], map[k := Some(b)]]);
    assert Set(s3, k, b) == st;
    assert OutermostAt(st.stack, k, 0);
    assert InnermostAt(st.stack, k, 1);
  }

  /** `countValues(v)` is exactly the number of keys of the `getAll` view whose value is `v`. */
  lemma CountValuesCountsKeys(st: State, v: string, keys: set<string>)
    requires forall k :: k in keys <==> Find(GetAll(st), k) == Some(v)
    ensures CountValues(st, v) == |keys|
  {
    assert keys == KeysWithValue(GetAll(st), v);
  }
}

=== FILE: transactional.dfy ===
/**
  The transactional key-value store: a base store plus one caller's stack of
  transaction contexts.  The stack is kept with its innermost (top) context
  LAST, so `stack[i - 1]` is the parent of `stack[i]`.
 */
module Transactional {
  import opened Entries

  datatype State = State(store: map<string, string>, stack: seq<Context>)

  /** The result of `commitTransaction` / `rollbackTransaction`: whether a transaction was closed, and the new state. */
  datatype Closed = Closed(ok: bool, state: State)

  /** How a committed value is written to the base store. */
  function StoreValue(v: string): string { v }

  /** How a committed value is written to a parent context: as a pending write. */
  function Pending(v: string): Option<string> { Some(v) }

  function Empty(): State { State(map[], []) }

  predicate IsInTransaction(st: State)
  {
    |st.stack| > 0
  }

  function Top(st: State): Context
    requires IsInTransaction(st)
  {
    st.stack[|st.stack| - 1]
  }

  /** The stack without its top context. */
  function Parents(st: State): seq<Context>
    requires IsInTransaction(st)
  {
    st.stack[..|st.stack| - 1]
  }

  // ---------------------------------------------------------------------------
  // Where a key is mentioned in the stack

  /** `stack[i]` is the innermost context that holds an entry for `k`. */
  ghost predicate InnermostAt(cs: seq<Context>, k: string, i: int)
  {
    0 <= i < |cs| && k in cs[i] && forall j :: i < j < |cs| ==> k !in cs[j]
  }

  /** `stack[i]` is the outermost context that holds an entry for `k`. */
  ghost predicate OutermostAt(cs: seq<Context>, k: string, i: int)
  {
    0 <= i < |cs| && k in cs[i] && forall j :: 0 <= j < i ==> k !in cs[j]
  }

  /** No context of the stack holds an entry for `k`. */
  ghost predicate Unmentioned(cs: seq<Context>, k: string)
  {
    forall i :: 0 <= i < |cs| ==> k !in cs[i]
  }

  // ---------------------------------------------------------------------------
  // Point operations

  /** `set`: a pending write in the top context, or a direct store write when no transaction is active. */
  function Set(st: State, k: string, v: string): (r: State)
    ensures |r.stack| == |st.stack|
    ensures forall i :: 0 <= i < |st.stack| - 1 ==> r.stack[i] == st.stack[i]
    ensures IsInTransaction(st) ==> r.store == st.store && Top(r) == Top(st)[k := Some(v)]
    ensures !IsInTransaction(st) ==> r.store == st.store[k := v]
  {
    if IsInTransaction(st) then State(st.store, Parents(st) + [Top(st)[k := Some(v)]])
    else State(st.store[k := v], st.stack)
  }

  /** `delete`: a tombstone in the top context, or a direct store removal when no transaction is active. */
  function Delete(st: State, k: string): (r: State)
    ensures |r.stack| == |st.stack|
    ensures forall i :: 0 <= i < |st.stack| - 1 ==> r.stack[i] == st.stack[i]
    ensures IsInTransaction(st) ==> r.store == st.store && Top(r) == Top(st)[k := None]
    ensures !IsInTransaction(st) ==> r.store.Keys == st.store.Keys - {k}
    ensures !IsInTransaction(st) ==> forall k' :: k' in r.store ==> r.store[k'] == st.store[k']
  {
    if IsInTransaction(st) then State(st.store, Parents(st) + [Top(st)[k := None]])
    else State(st.store - {k}, st.stack)
  }

  /**
    `get`: the entry of the innermost context that mentions `k` (a tombstone
    reads as absent), or the store's value when no context mentions it.
   */
  function Get(st: State, k: string): (r: Option<string>)
    ensures forall i :: InnermostAt(st.stack, k, i) ==> r == st.stack[i][k]
    ensures Unmentioned(st.stack, k) ==> r == Find(st.store, k)
    decreases |st.stack|
  {
    if !IsInTransaction(st) then Find(st.store, k)
    else if k in Top(st) then Top(st)[k]
    else Get(State(st.store, Parents(st)), k)
  }

  /**
    The contexts of `cs` applied to `m` innermost first, so that an outer
    context's entry overwrites an inner one for the same key.
   */
  function Overlay(m: map<string, string>, cs: seq<Context>): (r: map<string, string>)
    ensures forall k, i :: OutermostAt(cs, k, i) ==> Find(r, k) == cs[i][k]
    ensures forall k :: Unmentioned(cs, k) ==> Find(r, k) == Find(m, k)
    decreases |cs|
  {
    if |cs| == 0 then m
    else
      var last := cs[|cs| - 1];
      var init := cs[..|cs| - 1];
      var r := Overlay(Apply(m, last, StoreValue), init);
      assert forall k, i :: OutermostAt(cs, k, i) && i < |cs| - 1 ==> OutermostAt(init, k, i);
      assert forall k :: OutermostAt(cs, k, |cs| - 1) ==> Unmentioned(init, k);
      r
  }

  /**
    `getAll`: the store with every context applied.  For each key the
    OUTERMOST context mentioning it decides (a value shows, a tombstone hides);
    keys no context mentions show the store's value.
   */
  function GetAll(st: State): (r: map<string, string>)
    ensures forall k, i :: OutermostAt(st.stack, k, i) ==> Find(r, k) == st.stack[i][k]
    ensures forall k :: Unmentioned(st.stack, k) ==> Find(r, k) == Find(st.store, k)
  {
    Overlay(st.store, st.stack)
  }

  function KeysWithValue(m: map<string, string>, v: string): set<string>
  {
    set k | k in m && m[k] == v
  }

  /** `countValues`: how many keys of the `getAll` view hold `v`. */
  function CountValues(st: State, v: string): (n: nat)
    ensures n <= |GetAll(st)|
    ensures n > 0 <==> exists k :: Find(GetAll(st), k) == Some(v)
  {
    var view := GetAll(st);
    var keys := KeysWithValue(view, v);
    SubsetCard(keys, view.Keys);
    if keys == {} then
      assert forall k :: Find(view, k) == Some(v) ==> k in keys;
      0
    else
      var k :| k in keys;
      assert Find(view, k) == Some(v);
      |keys|
  }

  lemma SubsetCard(a: set<string>, b: set<string>)
    requires a <= b
    ensures |a| <= |b|
  {
    assert b == a + (b - a);
  }

  // ---------------------------------------------------------------------------
  // Transaction control

  /**
    `beginTransaction`: pushes a fresh empty context, unless the top context
    exists and is still empty, in which case nothing changes.
   */
  function Begin(st: State): (r: State)
    ensures IsInTransaction(r)
    ensures r.store == st.store
    ensures |st.stack| <= |r.stack| <= |st.stack| + 1
    ensures |r.stack| == |st.stack| <==> IsInTransaction(st) && Top(st) == map[]
    ensures |r.stack| == |st.stack| ==> r == st
    ensures |r.stack| == |st.stack| + 1 ==> r.stack[..|st.stack|] == st.stack && Top(r) == map[]
  {
    if IsInTransaction(st) && Top(st) == map[] then st
    else State(st.store, st.stack + [map[]])
  }

  /**
    `commitTransaction`: with no transaction, reports false and changes
    nothing.  Otherwise pops the top context: an outermost one is written to
    the store (a value as a `set`, a tombstone as a `delete`), a nested one is
    merged into its parent (a value overwrites, a tombstone REMOVES the
    parent's entry rather than recording a tombstone there).
   */
  function Commit(st: State): (r: Closed)
    ensures !IsInTransaction(st) ==> r == Closed(false, st)
    ensures IsInTransaction(st) ==> r.ok && |r.state.stack| == |st.stack| - 1
    ensures |st.stack| == 1 ==> forall k :: Find(r.state.store, k) == Get(st, k)
    ensures |st.stack| >= 2 ==> r.state.store == st.store
    ensures |st.stack| >= 2 ==> r.state.stack[..|st.stack| - 2] == st.stack[..|st.stack| - 2]
    ensures |st.stack| >= 2 ==> forall k :: k in Top(st) ==>
              Find(Top(r.state), k) == Lifted(Top(st)[k], Pending)
    ensures |st.stack| >= 2 ==> forall k :: k !in Top(st) ==>
              Find(Top(r.state), k) == Find(st.stack[|st.stack| - 2], k)
  {
    if !IsInTransaction(st) then Closed(false, st)
    else
      var top := Top(st);
      var parents := Parents(st);
      if |parents| == 0 then
        Closed(true, State(Apply(st.store, top, StoreValue), []))
      else
        var merged := Apply(parents[|parents| - 1], top, Pending);
        Closed(true, State(st.store, parents[..|parents| - 1] + [merged]))
  }

  /** `rollbackTransaction`: with no transaction reports false; otherwise discards exactly the top context. */
  function Rollback(st: State): (r: Closed)
    ensures !IsInTransaction(st) ==> r == Closed(false, st)
    ensures IsInTransaction(st) ==> r.ok && r.state.store == st.store && r.state.stack == Parents(st)
  {
    if !IsInTransaction(st) then Closed(false, st)
    else Closed(true, State(st.store, Parents(st)))
  }
}
